=== FILE: README.md ===
# Banco Estado movement scraper — the pure core, in Dafny

The scraper logs into Banco Estado's web site, downloads the account statement
as a spreadsheet, turns its rows into movements `{fecha, descripcion, monto}`,
and hands them to a store. A command-line driver reads a date range and the
credentials. This project models the parts of that pipeline that are plain
computation and proves what they do:

- `Amount` — `clean_monto`, the cleaner applied to the debit and credit cells.
  It deletes every `$`, `.`, `+` and space, strips the text, turns the decimal
  comma into a point and reads a number, with 0 for anything unreadable. So
  `1.500,00` is 1500 and `-25.000` is -25000. A cell that already holds a
  float's rendering, such as `-5000.0`, loses its point and reads as -50000.
  The model keeps that behaviour as the code has it.
- `Export` — the rest of `extract_movements` once the sheet is read:
  - renaming the columns;
  - keeping the rows before the first row without a date;
  - the debit/credit column check;
  - one movement per kept row with `monto = credit + debit`;
  - the rule that only a non-empty list is offered to the store and that the
    list is returned whatever the store answers (the `_id` key a database
    store adds to each record in place is not modelled).
- `Download` — the selection step of `_wait_for_download`. It takes the
  `*.xlsx` files minus temporary ones, and the newest by creation time (the
  first such file on ties, as `max` does). The polling loop becomes a
  function of the listings seen before the timeout.
- `Calendar` — `datetime.strptime(text, '%Y-%m-%d')` as CPython's `_strptime`
  reads it:
  - one regular expression anchored at the start;
  - "unconverted data remains" when the match stops early;
  - then the range check of `datetime.date`;
  - plus the `strftime('%d%m%Y')` rendering.
- `MultiScrape` — `parse_date_range` and the credential fallback of `main`:
  the flag if it is a non-empty string, otherwise the environment variable if
  it is, otherwise a usage error.
- `Strings` and `Wrappers` — the Python string operations the above rely on
  (`replace`, `strip`, `split`, `endswith`, decimal rendering), plus `Option`
  and `Result`.

Clock, file system, browser, spreadsheet reader and store are not modelled.
The store is a function parameter `save`. Successive directory listings are a
sequence parameter `polls`. The spreadsheet is given as a set of column labels
and a sequence of rows whose cells are `Option<string>` (`None` for a blank
cell).

## Model

| member | source | states |
|---|---|---|
| Amount.DeleteMarksCount | app/banco_estado_scraper.py:372-375 | The four deletions remove every `$`, `.`, `+` and space and keep every other character's occurrences. |
| Amount.CleanText | app/banco_estado_scraper.py:370-378 | After cleaning, no `$`, `+`, space or comma is left. There are exactly as many points as the cell had commas. Every occurrence of every digit and of the minus sign in the cell is kept, so each appears as often as before. |
| Amount.ParseDigits | app/banco_estado_scraper.py:380 | A plain decimal, signed or not, reads as the value of its digits in every spelling: leading zeros, no whole digits (`.5`), no fraction digits (`5.`), no point at all. |
| Amount.ParsePointDigits | app/banco_estado_scraper.py:380 | Digits around a point, signed or not, read as the value of those digits, negated when signed. |
| Amount.ParseWholeDigits | app/banco_estado_scraper.py:380 | Digits without a point, signed or not, read as their whole value, negated when signed. |
| Amount.ParseSigned | app/banco_estado_scraper.py:380 | A leading `-` negates the value read from the rest of the text, and an unsigned text reads as its whole and fraction digits. |
| Amount.ParseNumberSyntax | app/banco_estado_scraper.py:380 | The number reader succeeds exactly on the plain-decimal grammar stated character by character. The grammar is an optional `-`, then digits with at most one point, with at least one digit. |
| Amount.CleanAmount | app/banco_estado_scraper.py:365-383 | A blank cell is 0. Otherwise the amount is the cleaned text read as a number, or 0 when it does not read as one. The cleaner never fails. |
| Amount.UnreadableIsZero | app/banco_estado_scraper.py:379-383 | A cell whose cleaned text is empty, `-`, or outside the grammar is worth exactly 0. |
| Amount.DeletedCharIgnored | app/banco_estado_scraper.py:372-376 | Inserting a `$`, `.`, `+` or space anywhere in a cell never changes its amount. This is why a thousands separator is harmless. |
| Amount.CleanCommaDecimal | app/banco_estado_scraper.py:367-380 | Round trip: any signed decimal written with a decimal comma is read back as exactly its value. |
| Amount.ThousandsExample | app/banco_estado_scraper.py:367-380 | `1.500,00` is 1500. |
| Amount.DebitExample | app/banco_estado_scraper.py:367-380 | `-25.000` is -25000. |
| Amount.FloatRenderingExample | app/banco_estado_scraper.py:367-380 | A cell rendered as the float `-5000.0` loses its point and reads as -50000. |
| Export.Renamed | app/banco_estado_scraper.py:305-316 | Each of `fecha`, `descripcion`, `cargo_excel` and `abono_excel` is present exactly when its bank heading or the name itself was a heading. No bank heading survives under its old name. Every other heading keeps its name. |
| Export.RenamedHas | app/banco_estado_scraper.py:305-316 | A renamed column is present exactly when its bank heading or the new name itself was a heading. |
| Export.BankLabelsRenamed | app/banco_estado_scraper.py:305-316 | The bank's four headings become `fecha`, `descripcion`, `cargo_excel` and `abono_excel`. |
| Export.MissingDates | app/banco_estado_scraper.py:320 | The undated rows, in ascending order and with none missed. |
| Export.KeptRows | app/banco_estado_scraper.py:320-329 | The kept rows are a prefix of the table and all have a date. When the prefix is shorter than the table, the next row has no date. |
| Export.KeptRowsUnique | app/banco_estado_scraper.py:320-329 | Those facts determine the prefix: it ends at the first undated row, or at the end of the table. |
| Export.AllDatedKeptWhole | app/banco_estado_scraper.py:328-329 | When every row has a date, the whole table is kept. |
| Export.KeptRowsIdempotent | app/banco_estado_scraper.py:320-329 | Truncating the kept rows again changes nothing. |
| Export.KeptRowsIgnoresTail | app/banco_estado_scraper.py:322-326 | Dated rows, then an undated row, then anything: exactly the dated rows are kept. |
| Export.DatedPrefixLength | app/banco_estado_scraper.py:320-327 | The scan of the date column returns the number of kept rows, and the rows before that count are the kept rows. |
| Export.CellText | app/banco_estado_scraper.py:361-362 | A blank text cell becomes the text `nan`; any other cell keeps its text. |
| Export.ToMovement | app/banco_estado_scraper.py:388-399 | A movement keeps its row's date and description. With the debit cell blank its amount is the cleaned credit, and with the credit cell blank it is the cleaned debit. |
| Export.ToMovementOfExportedAmount | app/banco_estado_scraper.py:365-393 | A dated row with one amount cell blank and the other holding a comma-decimal amount gives a movement of exactly that signed amount. |
| Export.BuildMovements | app/banco_estado_scraper.py:386-399 | One movement per row, in row order. Each has the row's date, its description and `clean(credit) + clean(debit)`. |
| Export.BuildMovementsAppend | app/banco_estado_scraper.py:386-399 | Building movements distributes over concatenating rows. |
| Export.ParseSheet | app/banco_estado_scraper.py:305-399 | Movements come out exactly when all four renamed columns are present and the first row has a date. They are then the movements of the kept rows. Otherwise the list is empty. |
| Export.ParseSheetRows | app/banco_estado_scraper.py:339-399 | With the four columns present, the result is the movements of the kept rows, one per kept row. |
| Export.UndatedFirstRowYieldsNothing | app/banco_estado_scraper.py:331-336 | When the first row has no date, the result is empty whatever the columns. |
| Export.ParseSheetStopsAtBlankDate | app/banco_estado_scraper.py:320-336 | With the columns present, rows from the first blank date on never contribute a movement. |
| Export.StatementExample | app/banco_estado_scraper.py:305-399 | A debit, a credit with no description, a row without a date and one more dated row give exactly the first two movements. |
| Export.Extract | app/banco_estado_scraper.py:404-411 | The store is offered the list exactly when it is non-empty. "Saved" is reported only when it was offered and the store accepted it. A missing or unreadable download returns `[]`, and a readable one returns its parsed list (line 447). |
| Export.ExtractIgnoresStore | app/banco_estado_scraper.py:404-411 | Whether the store accepts or refuses never changes the records returned, as built, nor whether saving was attempted. The `_id` a database store adds in place is not modelled. |
| Download.FilterKeepsEveryMatch | app/banco_estado_scraper.py:85-86 | A name ending in `.xlsx` never ends in `.tmp` or `.crdownload`, so the filter removes nothing. |
| Download.Candidates | app/banco_estado_scraper.py:85-86 | The candidates are exactly the listed files that pass the glob and the filter. |
| Download.CandidatesAppend | app/banco_estado_scraper.py:85-86 | The filter keeps the listing's order: filtering two parts of a listing and joining them gives the candidates of the whole. |
| Download.FirstNewestUnique | app/banco_estado_scraper.py:89 | At most one position is newest with every earlier file strictly older. |
| Download.NewestIndex | app/banco_estado_scraper.py:89 | The position `max(..., key=getctime)` returns: no file is newer, and every earlier file is strictly older. |
| Download.SelectNewest | app/banco_estado_scraper.py:89 | The left-to-right scan picks that same file, which is in the list and has the largest creation time. |
| Download.Pick | app/banco_estado_scraper.py:85-93 | A listing yields a file exactly when it has a candidate, and the file yielded is a candidate. |
| Download.PickFirstNewest | app/banco_estado_scraper.py:85-93 | The name picked is that of the first candidate in listing order among those with the latest creation time. Ties go to the earlier entry, as `max` keeps the first of equal keys. |
| Download.PickIsNewest | app/banco_estado_scraper.py:85-93 | No candidate of the listing was created after the file picked. |
| Download.WaitForDownload | app/banco_estado_scraper.py:83-97 | The wait ends with `None` exactly when no listing before the timeout had a candidate. |
| Download.WaitTakesFirstHit | app/banco_estado_scraper.py:83-97 | The file returned is the one picked from the first listing that has a candidate. |
| Download.WaitIgnoresLaterPolls | app/banco_estado_scraper.py:83-97 | Listings after the first hit never affect the result. |
| Calendar.DaysInMonth | scripts/multi_scrape.py:24-25 | Months have 28 to 31 days, and 29 exactly for February of a leap year. |
| Calendar.BeforeIsStrictTotal | scripts/multi_scrape.py:28 | The date comparison is irreflexive, asymmetric, transitive and total. |
| Calendar.YearField | scripts/multi_scrape.py:24-25 | `%Y` takes exactly four digits, a year below 10000. |
| Calendar.MonthField | scripts/multi_scrape.py:24-25 | `%m` takes one or two characters and reads a month from 1 to 12. |
| Calendar.DayField | scripts/multi_scrape.py:24-25 | `%d` takes one or two characters and reads a day from 1 to 31. |
| Calendar.ParseIso | scripts/multi_scrape.py:24-25 | Every date `strptime` returns is a valid calendar date. |
| Calendar.ParseIsoOfFields | scripts/multi_scrape.py:24-25 | When the three fields match their pieces, the result is their date, or an out-of-range error if that date does not exist. |
| Calendar.ParseIsoSpelled | scripts/multi_scrape.py:24-25 | Every spelling of a valid date is read as that date. This includes one-digit months and days and a space-padded day. |
| Calendar.ParseIsoRoundTrip | scripts/multi_scrape.py:24-25 | The canonical `YYYY-MM-DD` text of a valid date reads back as that date. |
| Calendar.ParseIsoAccepts | scripts/multi_scrape.py:24-25 | Conversely, every accepted text is a spelling of the date returned. |
| Calendar.FormatDdmmyyyy | scripts/multi_scrape.py:32-33 | The rendering is all digits and at least five long. |
| Calendar.ParseDdmmyyyy | scripts/multi_scrape.py:32-33 | A `ddmmyyyy` text that reads as a date has eight digits and names a valid date. |
| Calendar.FormatDdmmyyyyRoundTrip | scripts/multi_scrape.py:32-35 | From year 1000 on, the rendering has eight digits and reads back as the same date. |
| Calendar.ParseDdmmyyyyRenders | scripts/multi_scrape.py:32-35 | Conversely, a `ddmmyyyy` text naming a date from year 1000 on is that date's rendering. |
| Calendar.ShortSpellingExample | scripts/multi_scrape.py:24-25 | `2024-1-5` is 5 January 2024. |
| Calendar.LeapDayExample | scripts/multi_scrape.py:24-25 | `2024-02-29` is accepted. |
| Calendar.NoLeapDayExample | scripts/multi_scrape.py:24-25 | `2023-02-29` matches but is refused as out of range. |
| Calendar.DayTooLargeExample | scripts/multi_scrape.py:24-25 | In `2024-01-32`, `%d` takes only the `3`, and the leftover `2` is unconverted data. |
| Calendar.YearZeroExample | scripts/multi_scrape.py:24-25 | `0000-01-01` matches but is refused as out of range. |
| MultiScrape.ParseDateRange | scripts/multi_scrape.py:19-39 | A range is accepted exactly when it splits on `:` into two parts, both parts are dates, and the first is not later than the second. The result is the two `ddmmyyyy` renderings in order. A wrong number of colons is reported as such. |
| MultiScrape.SplitRange | scripts/multi_scrape.py:22 | Two canonical dates joined by `:` split back into exactly those two texts. |
| MultiScrape.ParseDateRangeRoundTrip | scripts/multi_scrape.py:19-35 | Two ordered dates from year 1000 on come back as their renderings, and these read back as the dates. |
| MultiScrape.ReversedRangeRefused | scripts/multi_scrape.py:28-29 | A range with the later date first is refused. |
| MultiScrape.ParseDateRangeAccepts | scripts/multi_scrape.py:19-35 | Any two valid ISO dates in order, in any year, are accepted and come back as their `ddmmyyyy` renderings. |
| MultiScrape.SingleDayRange | scripts/multi_scrape.py:28-35 | Equal dates are accepted for every valid date, in any year. |
| MultiScrape.JanuaryExample | scripts/multi_scrape.py:19-35 | `2024-01-01:2024-01-31` gives `("01012024", "31012024")`. |
| MultiScrape.SwappedJanuaryExample | scripts/multi_scrape.py:28-29 | `2024-01-31:2024-01-01` is refused. |
| MultiScrape.MissingColonExample | scripts/multi_scrape.py:22 | A single date without a colon is refused as a one-part range. |
| MultiScrape.Resolve | scripts/multi_scrape.py:54-69 | A credential is found exactly when the flag or the variable is a non-empty string. The flag wins when it is one. |
| MultiScrape.Configure | scripts/multi_scrape.py:41-69 | The run starts exactly when the range is present and accepted and both credentials are found. A missing or refused range is reported before the credentials. The password is reported missing only once the username has been found. The settings are the parsed range and the resolved credentials. |
| MultiScrape.FlagsWin | scripts/multi_scrape.py:54-69 | With both flags given, the environment never matters. |
| MultiScrape.UsernameReportedFirst | scripts/multi_scrape.py:57-62 | With a good range and no username anywhere, the error is the missing username, whatever the password. |
| Strings.StripCount | app/banco_estado_scraper.py:376 | `strip` only removes white space: every other character keeps all its occurrences. |
| Strings.SplitJoin | scripts/multi_scrape.py:22 | `split` loses nothing: joining the parts with the separator gives the text back. |

## Left out

- Browser automation: login, navigation, clicks, the JavaScript-click fallback, typing, the random sleeps and the wait timeouts. This is I/O against an external page.
- Download.WaitForDownload: the clock and the sleeps. The listings seen before the timeout are a parameter, and the 2-second pause before returning is not modelled.
- Download.GlobXlsx: `*.xlsx` is taken as a suffix match. The glob rule that `*` does not match a leading dot (hidden files) is not modelled.
- Download: directory listing and `os.path.getctime` are inputs. A file vanishing between the glob and `getctime` (which raises) is not modelled.
- `_clear_download_dir` and the removal of the downloaded file in the `finally` block: file-system side effects.
- Reading the spreadsheet (`pd.read_excel` with the header on row 15). The sheet comes in as column labels and rows of optional texts. Duplicate or colliding column labels are not modelled. Neither is the way pandas renders dates and numbers as text (`astype(str)`), so `fecha` is the cell's text as given.
- Export.Extract: the store is an opaque function `save` that answers true or false. Its exceptions, the database wrappers behind it, and the printed messages are not modelled.
- Export.Extract: a store backed by a reachable database (`insert_many`) adds an `_id` key to each record in place, so the source then returns records with that extra key. The model returns the records as built.
- Export.ExtractIgnoresStore: holds for the records as built. The source's store can change the returned records by adding `_id` in place, so two stores can make the returned dictionaries differ in that key.
- Export.Extract: an exception raised after the list was built (for instance by the store) still returns the built list in the source; the model has no such path.
- Amount.ParseNumber: only the plain-decimal part of Python's `float()` grammar is modelled. Exponents, `inf`/`nan` and underscores are treated as unreadable, which gives 0. Digits are ASCII only: Python's `float()` also reads other Unicode decimal digits (full-width, Arabic-Indic), so a cell written with them has a value in the source and 0 in the model.
- Amount.CleanAmount: amounts are exact rationals, not binary floating point, so rounding of long decimals and `-0.0` are not modelled.
- Calendar.ParseIso: `\d` is taken as the ASCII digits, whereas Python's pattern also accepts other Unicode decimal digits. The time-of-day part of the `datetime` is always midnight and is dropped.
- Calendar.FormatDdmmyyyy: `%Y` is written without padding, as the platform's C `strftime` does on glibc. Whether years below 1000 are zero-padded depends on the platform and the Python version (recent CPython releases pad `%Y` to four digits themselves). The model takes the unpadded form, so below year 1000 its rendering is shorter than eight characters. The round trips are stated from year 1000 on.
- MultiScrape.ParseDateRange: the text of the error messages is not modelled. Every refusal is one `ArgumentTypeError`, and the `RangeError` constructors only record which check failed.
- MultiScrape.Configure: `--account` is accepted and unused, so it is not modelled. `.env` loading becomes the `Env` parameter. `parser.error` (print and exit) becomes an error value. The scraper run that follows is not modelled.
- `webdriver/driver_factory.py`, `app/utils/mongo_handler.py`, `app/utils/database_manager.py` and `app/controller.py` are not part of this model. They are browser configuration, thin database wrappers and an empty skeleton.

=== FILE: Amount.dfy ===
/**
 * `clean_monto`, the cleaner applied to the debit ("Cheques / Cargos $") and
 * credit ("Depósitos / Abonos $") cells of the bank's spreadsheet export.
 *
 * The cell text loses every `$`, `.`, `+` and space, is stripped of surrounding
 * white space, has its decimal comma turned into a point and is read as a number.
 * A blank cell, a cleaned text that is empty or just `-`, and a text that does not
 * read as a number all give 0; the cleaner never fails.
 *
 * Amounts are exact rationals (`real`) rather than binary floating point, and the
 * number reader accepts plain decimals only: an optional `-`, digits, and at most
 * one `.` with at least one digit somewhere.
 */
module Amount {
  import opened Wrappers
  import opened Strings

  /** The characters the cleaner deletes before anything else: `$`, `.`, `+` and space. */
  predicate IsDeleted(c: char)
  {
    c == '$' || c == '.' || c == '+' || c == ' '
  }

  lemma CountZeroNotIn(s: string, x: char)
    requires Count(s, x) == 0
    ensures x !in s
  {
    if x in s {
      var k :| 0 <= k < |s| && s[k] == x;
      CountPositive(s, k);
    }
  }

  /** The four deletions, in the order the source chains them. */
  function DeleteMarks(raw: string): string
  {
    Replace(Replace(Replace(Replace(raw, '$', ""), '.', ""), '+', ""), ' ', "")
  }

  /** Deleting one of the four marks keeps every other character's occurrences. */
  lemma {:induction false} DeleteMarksCount(raw: string, x: char)
    ensures IsDeleted(x) ==> Count(DeleteMarks(raw), x) == 0
    ensures !IsDeleted(x) ==> Count(DeleteMarks(raw), x) == Count(raw, x)
  {
    var r1 := Replace(raw, '$', "");
    var r2 := Replace(r1, '.', "");
    var r3 := Replace(r2, '+', "");
    RemoveCount(raw, '$', x);
    RemoveCount(r1, '.', x);
    RemoveCount(r2, '+', x);
    RemoveCount(r3, ' ', x);
  }

  /** What the cleaning steps do to the occurrences of one character. */
  lemma {:induction false} CleanCount(raw: string, x: char)
    ensures var t := Replace(Strip(DeleteMarks(raw)), ',', ".");
      && (IsDeleted(x) && x != '.' ==> Count(t, x) == 0)
      && (x == '.' ==> Count(t, x) == Count(raw, ','))
      && (!IsDeleted(x) && !IsSpace(x) && x != ',' ==> Count(t, x) == Count(raw, x))
  {
    var removed := DeleteMarks(raw);
    var stripped := Strip(removed);
    DeleteMarksCount(raw, x);
    DeleteMarksCount(raw, ',');
    DeleteMarksCount(raw, '.');
    StripCount(removed, x);
    StripCount(removed, ',');
    StripCount(removed, '.');
    SwapCount(stripped, ',', '.', x);
  }

  /**
   * The text handed to the number reader. No currency sign, plus sign, space or comma
   * survives; every point in it is a former decimal comma; digits and minus signs are
   * all kept.
   */
  function CleanText(raw: string): (t: string)
    ensures '$' !in t && '+' !in t && ' ' !in t && ',' !in t
    ensures Count(t, '.') == Count(raw, ',')
    ensures forall x :: IsDigit(x) || x == '-' ==> Count(t, x) == Count(raw, x)
  {
    var t := Replace(Strip(DeleteMarks(raw)), ',', ".");
    CleanCount(raw, '$');
    CleanCount(raw, '+');
    CleanCount(raw, ' ');
    CleanCount(raw, '.');
    CountZeroNotIn(t, '$');
    CountZeroNotIn(t, '+');
    CountZeroNotIn(t, ' ');
    assert forall x :: IsDigit(x) || x == '-' ==> Count(t, x) == Count(raw, x) by {
      forall x | IsDigit(x) || x == '-' ensures Count(t, x) == Count(raw, x) {
        CleanCount(raw, x);
      }
    }
    t
  }

  /** The text after an optional leading minus sign. */
  function Unsigned(t: string): string
  {
    if |t| > 0 && t[0] == '-' then t[1..] else t
  }

  /**
   * `float(t)` on the plain-decimal grammar: `-`? digits (`.` digits?)? or `-`? `.` digits.
   * Anything else is a parse failure (`None`), where Python raises `ValueError`.
   */
  function ParseNumber(t: string): Option<real>
  {
    var negative := |t| > 0 && t[0] == '-';
    var parts := Split(Unsigned(t), '.');
    if |parts| > 2 then None
    else
      var whole := parts[0];
      var frac := if |parts| == 2 then parts[1] else "";
      if !AllDigits(whole) || !AllDigits(frac) || |whole| + |frac| == 0 then None
      else
        var magnitude := Magnitude(whole, frac);
        Some(if negative then -magnitude else magnitude)
  }

  /** `n / 10^scale`, the value of `scale` fraction digits reading `n`. */
  function Fraction(n: nat, scale: nat): real
  {
    n as real / Pow10(scale) as real
  }

  /** The value of the digits `whole` `.` `frac`. */
  function Magnitude(whole: string, frac: string): real
    requires AllDigits(whole) && AllDigits(frac)
  {
    DigitsValue(whole) as real + Fraction(DigitsValue(frac), |frac|)
  }

  /** The accepted grammar stated on characters: at most one point, only digits otherwise, some digit. */
  predicate NumberSyntax(t: string)
  {
    var body := Unsigned(t);
    && Count(body, '.') <= 1
    && (forall k :: 0 <= k < |body| ==> body[k] == '.' || IsDigit(body[k]))
    && Count(body, '.') < |body|
  }

  lemma DigitsHaveNoPoint(s: string)
    requires AllDigits(s)
    ensures Count(s, '.') == 0 && '.' !in s
  {
    CountZero(s, '.');
  }

  /** The number reader succeeds exactly on the character-level grammar. */
  lemma {:induction false} ParseNumberSyntax(t: string)
    ensures ParseNumber(t).Some? <==> NumberSyntax(t)
  {
    var body := Unsigned(t);
    var parts := Split(body, '.');
    SplitJoin(body, '.');
    if |parts| == 1 {
      assert body == parts[0];
      assert Count(body, '.') == 0;
      CountZeroNotIn(body, '.');
    } else if |parts| == 2 {
      var whole := parts[0];
      var frac := parts[1];
      assert body == whole + "." + frac;
      assert '.' !in whole && '.' !in frac;
      CountZero(whole, '.');
      CountZero(frac, '.');
      CountAppend(whole + ".", frac);
      CountAppend(whole, ".");
      assert Count(body, '.') == 1;
      if AllDigits(whole) && AllDigits(frac) {
        forall k | 0 <= k < |body| ensures body[k] == '.' || IsDigit(body[k]) {
          if k < |whole| {
            assert body[k] == whole[k];
          } else if k > |whole| {
            assert body[k] == frac[k - |whole| - 1];
          }
        }
      }
      if forall k :: 0 <= k < |body| ==> body[k] == '.' || IsDigit(body[k]) {
        forall k | 0 <= k < |whole| ensures IsDigit(whole[k]) {
          assert whole[k] == body[k];
        }
        forall k | 0 <= k < |frac| ensures IsDigit(frac[k]) {
          assert frac[k] == body[|whole| + 1 + k];
        }
      }
    }
  }

  /**
   * `clean_monto`: a blank cell gives 0; otherwise the cleaned text is read as a
   * number, and 0 stands in whenever it does not read as one. The explicit check
   * for an empty or `-` text changes nothing, since neither reads as a number.
   */
  function CleanAmount(cell: Option<string>): (amount: real)
    ensures cell.None? ==> amount == 0.0
    ensures cell.Some? ==> amount == ParseNumber(CleanText(cell.value)).GetOr(0.0)
  {
    match cell
    case None => 0.0
    case Some(raw) =>
      var t := CleanText(raw);
      if t == "" || t == "-" then
        assert ParseNumber(t).None? by { ParseNumberSyntax(t); }
        0.0
      else
        match ParseNumber(t)
        case Some(v) => v
        case None => 0.0
  }

  /** A cell whose cleaned text is empty, `-`, or outside the grammar is worth 0. */
  lemma {:induction false} UnreadableIsZero(raw: string)
    requires !NumberSyntax(CleanText(raw))
    ensures CleanAmount(Some(raw)) == 0.0
  {
    ParseNumberSyntax(CleanText(raw));
  }

  /** Turning points into commas and commas back into points restores a comma-free text. */
  lemma {:induction false} ReplaceBack(s: string)
    requires ',' !in s
    ensures Replace(Replace(s, '.', ","), ',', ".") == s
  {
    if |s| > 0 {
      ReplaceBack(s[1..]);
      var head := if s[0] == '.' then "," else [s[0]];
      ReplaceAppend(head, Replace(s[1..], '.', ","), ',', ".");
      assert s == [s[0]] + s[1..];
    }
  }

  /** The deletions act on each part of a text separately. */
  lemma {:induction false} DeleteMarksAppend(a: string, b: string)
    ensures DeleteMarks(a + b) == DeleteMarks(a) + DeleteMarks(b)
  {
    ReplaceAppend(a, b, '$', "");
    var a1, b1 := Replace(a, '$', ""), Replace(b, '$', "");
    ReplaceAppend(a1, b1, '.', "");
    var a2, b2 := Replace(a1, '.', ""), Replace(b1, '.', "");
    ReplaceAppend(a2, b2, '+', "");
    var a3, b3 := Replace(a2, '+', ""), Replace(b2, '+', "");
    ReplaceAppend(a3, b3, ' ', "");
  }

  /** A mark on its own is deleted entirely. */
  lemma {:induction false} DeleteMarksOfMark(c: char)
    requires IsDeleted(c)
    ensures DeleteMarks([c]) == []
  {
    ReplaceSingle(c, '$');
    var r1 := Replace([c], '$', "");
    if r1 == [] {
      assert DeleteMarks([c]) == Replace(Replace(Replace([], '.', ""), '+', ""), ' ', "");
    } else {
      ReplaceSingle(c, '.');
      var r2 := Replace(r1, '.', "");
      if r2 == [] {
        assert DeleteMarks([c]) == Replace(Replace([], '+', ""), ' ', "");
      } else {
        ReplaceSingle(c, '+');
        ReplaceSingle(c, ' ');
      }
    }
  }

  lemma {:induction false} DeleteMarksAround(a: string, c: char, b: string)
    requires IsDeleted(c)
    ensures DeleteMarks(a + [c] + b) == DeleteMarks(a + b)
  {
    DeleteMarksAppend(a + [c], b);
    DeleteMarksAppend(a, [c]);
    DeleteMarksAppend(a, b);
    DeleteMarksOfMark(c);
    assert DeleteMarks(a) + [] == DeleteMarks(a);
  }

  /**
   * Thousands separators, currency signs, plus signs and spaces are ignored wherever
   * they stand: inserting one anywhere in a cell leaves its amount unchanged.
   */
  lemma {:induction false} DeletedCharIgnored(a: string, c: char, b: string)
    requires IsDeleted(c)
    ensures CleanAmount(Some(a + [c] + b)) == CleanAmount(Some(a + b))
  {
    DeleteMarksAround(a, c, b);
  }

  /** The exact value `±(whole + frac / 10^scale)`. */
  function DecimalValue(negative: bool, whole: nat, frac: nat, scale: nat): real
  {
    var magnitude := whole as real + Fraction(frac, scale);
    if negative then -magnitude else magnitude
  }

  /** That value written with a decimal point and exactly `scale` fraction digits. */
  function PointDecimal(negative: bool, whole: nat, frac: nat, scale: nat): string
  {
    SignText(negative) + UnsignedText(whole, frac, scale)
  }

  function UnsignedText(whole: nat, frac: nat, scale: nat): string
  {
    Decimal(whole) + FractionText(frac, scale)
  }

  function SignText(negative: bool): string
  {
    if negative then "-" else ""
  }

  function FractionText(frac: nat, scale: nat): string
  {
    if scale == 0 then "" else "." + PadDigits(frac, scale)
  }

  /** The same rendering with a decimal comma, as the bank's export writes amounts. */
  function CommaDecimal(negative: bool, whole: nat, frac: nat, scale: nat): string
  {
    Replace(PointDecimal(negative, whole, frac, scale), '.', ",")
  }

  /** Only digits, minus signs and points. */
  predicate DecimalChars(s: string)
  {
    forall k :: 0 <= k < |s| ==> IsDigit(s[k]) || s[k] == '-' || s[k] == '.'
  }

  /** Only digits, minus signs and commas. */
  predicate CommaChars(s: string)
  {
    forall k :: 0 <= k < |s| ==> IsDigit(s[k]) || s[k] == '-' || s[k] == ','
  }

  lemma DecimalCharsAppend(a: string, b: string)
    requires DecimalChars(a) && DecimalChars(b)
    ensures DecimalChars(a + b)
  {
    forall k | 0 <= k < |a + b| ensures IsDigit((a + b)[k]) || (a + b)[k] == '-' || (a + b)[k] == '.' {
      if k >= |a| {
        assert (a + b)[k] == b[k - |a|];
      } else {
        assert (a + b)[k] == a[k];
      }
    }
  }

  /** Turning the points of a decimal rendering into commas leaves only digits, minus signs and commas. */
  lemma {:induction false} CommaCharsOfReplace(s: string)
    requires DecimalChars(s)
    ensures CommaChars(Replace(s, '.', ","))
  {
    if |s| > 0 {
      var head := if s[0] == '.' then "," else [s[0]];
      var rest := Replace(s[1..], '.', ",");
      CommaCharsOfReplace(s[1..]);
      assert Replace(s, '.', ",") == head + rest;
      forall k | 0 <= k < |head + rest| ensures IsDigit((head + rest)[k]) || (head + rest)[k] == '-' || (head + rest)[k] == ',' {
        if k >= |head| {
          assert (head + rest)[k] == rest[k - |head|];
        }
      }
    }
  }

  lemma {:induction false} PointDecimalChars(negative: bool, whole: nat, frac: nat, scale: nat)
    ensures DecimalChars(PointDecimal(negative, whole, frac, scale))
  {
    var w := Decimal(whole);
    assert DecimalChars(w);
    if scale > 0 {
      DecimalCharsAppend(".", PadDigits(frac, scale));
    }
    DecimalCharsAppend(w, FractionText(frac, scale));
    DecimalCharsAppend(SignText(negative), UnsignedText(whole, frac, scale));
  }

  lemma {:induction false} ParseWithPoint(t: string, w: string, f: string)
    requires |t| > 0 && t[0] != '-'
    requires Split(t, '.') == [w, f]
    requires AllDigits(w) && AllDigits(f) && |w| > 0
    ensures ParseNumber(t) == Some(Magnitude(w, f))
  {
  }

  lemma {:induction false} ParseWithoutPoint(t: string)
    requires |t| > 0 && t[0] != '-'
    requires Split(t, '.') == [t]
    requires AllDigits(t)
    ensures ParseNumber(t) == Some(Magnitude(t, ""))
  {
  }

  lemma {:induction false} ParseWholeText(whole: nat)
    ensures ParseNumber(Decimal(whole)) == Some(whole as real)
  {
    var w := Decimal(whole);
    DecimalRoundTrip(whole);
    DigitsHaveNoPoint(w);
    SplitNoSep(w, '.');
    ParseWithoutPoint(w);
    assert DigitsValue("") == 0;
    assert Fraction(0, 0) == 0.0;
  }

  /** Two digit strings joined by a point split back into the two. */
  lemma {:induction false} SplitAtPoint(w: string, f: string)
    requires AllDigits(w) && AllDigits(f)
    ensures Split(w + "." + f, '.') == [w, f]
  {
    DigitsHaveNoPoint(w);
    DigitsHaveNoPoint(f);
    SplitAfter(w, '.', f);
    SplitNoSep(f, '.');
  }

  /** A sign followed by a text that does not start with `-` reads as that text's parts, negated when signed. */
  lemma {:induction false} ParseSigned(negative: bool, u: string, w: string, f: string)
    requires |u| > 0 && u[0] != '-'
    requires Split(u, '.') == [w, f] || (Split(u, '.') == [w] && f == "")
    requires AllDigits(w) && AllDigits(f) && |w| + |f| > 0
    ensures ParseNumber(SignText(negative) + u)
      == Some(if negative then -Magnitude(w, f) else Magnitude(w, f))
  {
    var t := SignText(negative) + u;
    if negative {
      assert t[0] == '-' && t[1..] == u;
    } else {
      assert t == u;
    }
    assert Unsigned(t) == u;
  }

  /** Digits around a point, with a sign or without, read as their magnitude. */
  lemma {:induction false} ParsePointDigits(negative: bool, w: string, f: string)
    requires AllDigits(w) && AllDigits(f) && |w| + |f| > 0
    ensures ParseNumber(SignText(negative) + (w + "." + f))
      == Some(if negative then -Magnitude(w, f) else Magnitude(w, f))
  {
    var u := w + "." + f;
    SplitAtPoint(w, f);
    if |w| > 0 {
      assert u[0] == w[0] && IsDigit(w[0]);
    } else {
      assert u[0] == '.';
    }
    ParseSigned(negative, u, w, f);
  }

  /** Digits alone, with a sign or without, read as their whole value. */
  lemma {:induction false} ParseWholeDigits(negative: bool, w: string)
    requires AllDigits(w) && |w| > 0
    ensures ParseNumber(SignText(negative) + w)
      == Some(if negative then -Magnitude(w, "") else Magnitude(w, ""))
  {
    DigitsHaveNoPoint(w);
    SplitNoSep(w, '.');
    assert IsDigit(w[0]);
    ParseSigned(negative, w, w, "");
  }

  /**
   * Any plain decimal reads as the value of its digits, whatever their
   * spelling: leading zeros (`007`), no whole digits (`.5`), no fraction
   * digits (`5.`), with or without a sign.
   */
  lemma {:induction false} ParseDigits(negative: bool, w: string, f: string)
    requires AllDigits(w) && AllDigits(f) && |w| + |f| > 0
    ensures ParseNumber(SignText(negative) + (w + "." + f))
      == Some(if negative then -Magnitude(w, f) else Magnitude(w, f))
    ensures (|w| > 0 ==>
      ParseNumber(SignText(negative) + w) == Some(if negative then -Magnitude(w, "") else Magnitude(w, "")))
  {
    ParsePointDigits(negative, w, f);
    if |w| > 0 {
      ParseWholeDigits(negative, w);
    }
  }

  /** The digits of a rendering have the value rendered. */
  lemma {:induction false} MagnitudeOfRendering(whole: nat, frac: nat, scale: nat)
    requires frac < Pow10(scale)
    ensures Magnitude(Decimal(whole), PadDigits(frac, scale)) == whole as real + Fraction(frac, scale)
  {
    DecimalRoundTrip(whole);
    PadDigitsRoundTrip(frac, scale);
  }

  lemma {:induction false} ParseFractionText(whole: nat, frac: nat, scale: nat)
    requires 0 < scale && frac < Pow10(scale)
    ensures ParseNumber(Decimal(whole) + "." + PadDigits(frac, scale)) == Some(whole as real + Fraction(frac, scale))
  {
    var w := Decimal(whole);
    var digits := PadDigits(frac, scale);
    var u := w + "." + digits;
    SplitAtPoint(w, digits);
    assert u[0] == w[0];
    ParseWithPoint(u, w, digits);
    MagnitudeOfRendering(whole, frac, scale);
  }

  /** Reading an unsigned point-decimal rendering gives back its exact value. */
  lemma {:induction false} ParseUnsignedText(whole: nat, frac: nat, scale: nat)
    requires frac < Pow10(scale)
    ensures ParseNumber(UnsignedText(whole, frac, scale)) == Some(DecimalValue(false, whole, frac, scale))
  {
    if scale == 0 {
      assert UnsignedText(whole, frac, scale) == Decimal(whole);
      ParseWholeText(whole);
      assert Fraction(frac, scale) == 0.0;
    } else {
      assert UnsignedText(whole, frac, scale) == Decimal(whole) + "." + PadDigits(frac, scale);
      ParseFractionText(whole, frac, scale);
    }
  }

  /** A leading minus sign negates what the rest of the text reads as. */
  lemma {:induction false} ParseNegated(u: string)
    requires |u| > 0 && u[0] != '-'
    ensures ParseNumber("-" + u) == match ParseNumber(u) case Some(v) => Some(-v) case None => None
  {
    assert ("-" + u)[1..] == u;
  }

  lemma {:induction false} ParseNegativeText(whole: nat, frac: nat, scale: nat)
    requires frac < Pow10(scale)
    ensures ParseNumber("-" + UnsignedText(whole, frac, scale)) == Some(-DecimalValue(false, whole, frac, scale))
  {
    var u := UnsignedText(whole, frac, scale);
    ParseUnsignedText(whole, frac, scale);
    assert u[0] == Decimal(whole)[0];
    ParseNegated(u);
  }

  /** The number reader reads a point-decimal rendering back as its exact value. */
  lemma {:induction false} ParsePointDecimal(negative: bool, whole: nat, frac: nat, scale: nat)
    requires frac < Pow10(scale)
    ensures ParseNumber(PointDecimal(negative, whole, frac, scale)) == Some(DecimalValue(negative, whole, frac, scale))
  {
    if negative {
      ParseNegativeText(whole, frac, scale);
      assert PointDecimal(negative, whole, frac, scale) == "-" + UnsignedText(whole, frac, scale);
    } else {
      ParseUnsignedText(whole, frac, scale);
      assert PointDecimal(negative, whole, frac, scale) == UnsignedText(whole, frac, scale);
    }
  }

  /** A text of digits, minus signs and commas loses nothing to the cleaner but its commas, which become points. */
  lemma {:induction false} CleanTextOfCommaChars(raw: string)
    requires CommaChars(raw)
    ensures CleanText(raw) == Replace(raw, ',', ".")
  {
    assert '$' !in raw && '.' !in raw && '+' !in raw && ' ' !in raw;
    assert forall k :: 0 <= k < |raw| ==> !IsSpace(raw[k]);
    ReplaceAbsent(raw, '$', "");
    ReplaceAbsent(raw, '.', "");
    ReplaceAbsent(raw, '+', "");
    ReplaceAbsent(raw, ' ', "");
    assert DeleteMarks(raw) == raw;
  }

  /** A comma-decimal amount, as exported, cleans back to its exact value. */
  lemma {:induction false} CleanCommaDecimal(negative: bool, whole: nat, frac: nat, scale: nat)
    requires frac < Pow10(scale)
    ensures CleanAmount(Some(CommaDecimal(negative, whole, frac, scale))) == DecimalValue(negative, whole, frac, scale)
  {
    var t := PointDecimal(negative, whole, frac, scale);
    PointDecimalChars(negative, whole, frac, scale);
    CommaCharsOfReplace(t);
    CleanTextOfCommaChars(CommaDecimal(negative, whole, frac, scale));
    assert ',' !in t;
    ReplaceBack(t);
    ParsePointDecimal(negative, whole, frac, scale);
  }

  /** The renderings behind the examples below, each digit count and digit string on its own. */
  lemma Digits1500()
    ensures PadDigits(1500, 4) == "1500"
  {
  }

  lemma Digits25000()
    ensures PadDigits(25000, 5) == "25000"
  {
  }

  lemma Digits50000()
    ensures PadDigits(50000, 5) == "50000"
  {
  }

  lemma Decimal1500()
    ensures Decimal(1500) == "1500"
  {
    Digits1500();
    assert NumDigits(1500) == 4;
  }

  lemma Decimal25000()
    ensures Decimal(25000) == "25000"
  {
    Digits25000();
    assert NumDigits(25000) == 5;
  }

  lemma Decimal50000()
    ensures Decimal(50000) == "50000"
  {
    Digits50000();
    assert NumDigits(50000) == 5;
  }

  lemma PointExample()
    ensures Replace("1500.00", '.', ",") == "1500,00"
  {
    var whole, point, frac := "1500", ".", "00";
    assert "1500.00" == whole + (point + frac);
    ReplaceAppend(whole, point + frac, '.', ",");
    ReplaceAppend(point, frac, '.', ",");
    ReplaceAbsent(whole, '.', ",");
    ReplaceAbsent(frac, '.', ",");
    assert Replace(point, '.', ",") == ",";
    assert whole + ("," + frac) == "1500,00";
  }

  /**
   * The credit of the examples, 1500 with two zero fraction digits.
   * The amount and scale are pinned by a `requires` rather than written into the
   * `ensures`: literals there let the verifier unfold the rendering functions eagerly,
   * which exhausts its resources.
   */
  lemma CreditRendering(whole: nat, scale: nat)
    requires whole == 1500 && scale == 2
    ensures CommaDecimal(false, whole, 0, scale) == "1500,00"
    ensures DecimalValue(false, whole, 0, scale) == 1500.0
  {
    Decimal1500();
    assert FractionText(0, scale) == ".00" by {
      assert PadDigits(0, scale) == "00";
    }
    assert PointDecimal(false, whole, 0, scale) == "1500.00";
    PointExample();
  }

  /** A negative whole amount renders without a point, so the comma form is the same text. */
  lemma {:induction false} NegativeWholeRendering(whole: nat, text: string)
    requires text == "-" + Decimal(whole)
    ensures CommaDecimal(true, whole, 0, 0) == text
    ensures DecimalValue(true, whole, 0, 0) == -(whole as real)
  {
    assert PointDecimal(true, whole, 0, 0) == text;
    assert '.' !in text by {
      assert forall k :: 0 <= k < |Decimal(whole)| ==> IsDigit(Decimal(whole)[k]);
    }
    ReplaceAbsent(text, '.', ",");
  }

  /** A thousands separator and a decimal comma: `1.500,00` is 1500. */
  lemma ThousandsExample()
    ensures CleanAmount(Some("1.500,00")) == 1500.0
  {
    var whole, scale := 1500, 2;
    assert "1.500,00" == "1" + ['.'] + "500,00";
    assert "1" + "500,00" == "1500,00";
    DeletedCharIgnored("1", '.', "500,00");
    CreditRendering(whole, scale);
    CleanCommaDecimal(false, whole, 0, scale);
  }

  /** The debits of the examples, whole amounts without a point. */
  lemma Debit25000Rendering(whole: nat)
    requires whole == 25000
    ensures CommaDecimal(true, whole, 0, 0) == "-25000"
    ensures DecimalValue(true, whole, 0, 0) == -25000.0
  {
    NegativeWholeRendering(whole, "-" + Decimal(whole));
    Decimal25000();
  }

  lemma Debit50000Rendering(whole: nat)
    requires whole == 50000
    ensures CommaDecimal(true, whole, 0, 0) == "-50000"
    ensures DecimalValue(true, whole, 0, 0) == -50000.0
  {
    NegativeWholeRendering(whole, "-" + Decimal(whole));
    Decimal50000();
  }

  /**
   * A signed debit with a thousands separator: `-25.000` is -25000.
   * The cell is pinned by a `requires` rather than written into the `ensures`:
   * a literal there lets the verifier unfold the cleaning functions on it eagerly,
   * which exhausts its resources.
   */
  lemma DebitExample(cell: string)
    requires cell == "-25.000"
    ensures CleanAmount(Some(cell)) == -25000.0
  {
    var whole, head, tail := 25000, "-25", "000";
    assert cell == head + ['.'] + tail;
    assert head + tail == "-25000";
    DeletedCharIgnored(head, '.', tail);
    Debit25000Rendering(whole);
    CleanCommaDecimal(true, whole, 0, 0);
  }

  /**
   * A cell already rendered as a float keeps its digits but loses its point:
   * `-5000.0` reads as -50000.
   * The cell is pinned by a `requires` rather than written into the `ensures`:
   * a literal there lets the verifier unfold the cleaning functions on it eagerly,
   * which exhausts its resources.
   */
  lemma FloatRenderingExample(cell: string)
    requires cell == "-5000.0"
    ensures CleanAmount(Some(cell)) == -50000.0
  {
    var whole, head, tail := 50000, "-5000", "0";
    assert cell == head + ['.'] + tail;
    assert head + tail == "-50000";
    DeletedCharIgnored(head, '.', tail);
    Debit50000Rendering(whole);
    CleanCommaDecimal(true, whole, 0, 0);
  }
}

=== FILE: Calendar.dfy ===
/**
 * The two date texts of the command line: `datetime.strptime(text, '%Y-%m-%d')`
 * as CPython's `_strptime` reads it (one regular expression, anchored at the
 * start, then the range check of `datetime.date`), and `strftime('%d%m%Y')`,
 * the form the bank's search page is given.
 */
module Calendar {
  import opened Wrappers
  import opened Strings

  /** A calendar date of the proleptic Gregorian calendar. */
  datatype Date = Date(year: nat, month: nat, day: nat)

  predicate IsLeap(year: nat)
  {
    year % 4 == 0 && (year % 100 != 0 || year % 400 == 0)
  }

  function DaysInMonth(year: nat, month: nat): (n: nat)
    requires 1 <= month <= 12
    ensures 28 <= n <= 31
    ensures n == 29 <==> month == 2 && IsLeap(year)
  {
    if month == 2 then (if IsLeap(year) then 29 else 28)
    else if month == 4 || month == 6 || month == 9 || month == 11 then 30
    else 31
  }

  /** What `datetime.date` accepts: years 1 to 9999, months 1 to 12, days within the month. */
  predicate ValidDate(d: Date)
  {
    1 <= d.year <= 9999 && 1 <= d.month <= 12 && 1 <= d.day <= DaysInMonth(d.year, d.month)
  }

  /** Chronological order: `a` is strictly earlier than `b`. */
  predicate Before(a: Date, b: Date)
  {
    a.year < b.year
    || (a.year == b.year && (a.month < b.month || (a.month == b.month && a.day < b.day)))
  }

  /** `Before` is a strict total order on dates. */
  lemma BeforeIsStrictTotal(a: Date, b: Date, c: Date)
    ensures !Before(a, a)
    ensures Before(a, b) ==> !Before(b, a)
    ensures Before(a, b) && Before(b, c) ==> Before(a, c)
    ensures a == b || Before(a, b) || Before(b, a)
  {
  }

  /** A regular expression alternative that matched: the number read and the characters it took. */
  datatype Field = Field(value: nat, width: nat)

  /** `%Y` is `\d\d\d\d`: exactly four digits. */
  function YearField(s: string): (f: Option<Field>)
    ensures f.Some? ==> f.value.width == 4 <= |s| && f.value.value < 10000
  {
    if |s| >= 4 && AllDigits(s[..4]) then
      DigitsBelow(s[..4]);
      assert Pow10(4) == 10000;
      Some(Field(DigitsValue(s[..4]), 4))
    else None
  }

  /** A string of `n` digits reads as a number below `10^n`. */
  lemma {:induction false} DigitsBelow(s: string)
    requires AllDigits(s)
    ensures DigitsValue(s) < Pow10(|s|)
  {
    if |s| > 0 {
      DigitsBelow(s[..|s| - 1]);
    }
  }

  /**
   * `%m` is `1[0-2]|0[1-9]|[1-9]`, tried in that order. A `-` follows it in
   * the format, and a shorter alternative would leave a digit where the `-`
   * must be, so taking the first alternative that matches gives the answer of
   * the backtracking matcher.
   */
  function MonthField(s: string): (f: Option<Field>)
    ensures f.Some? ==> 1 <= f.value.value <= 12 && 1 <= f.value.width <= 2 && f.value.width <= |s|
  {
    if |s| >= 2 && s[0] == '1' && '0' <= s[1] <= '2' then Some(Field(10 + DigitValue(s[1]), 2))
    else if |s| >= 2 && s[0] == '0' && '1' <= s[1] <= '9' then Some(Field(DigitValue(s[1]), 2))
    else if |s| >= 1 && '1' <= s[0] <= '9' then Some(Field(DigitValue(s[0]), 1))
    else None
  }

  /**
   * `%d` is `3[01]|[12]\d|0[1-9]|[1-9]| [1-9]`, tried in that order; it ends
   * the format, so the first alternative that matches is the one taken.
   */
  function DayField(s: string): (f: Option<Field>)
    ensures f.Some? ==> 1 <= f.value.value <= 31 && 1 <= f.value.width <= 2 && f.value.width <= |s|
  {
    if |s| >= 2 && s[0] == '3' && '0' <= s[1] <= '1' then Some(Field(30 + DigitValue(s[1]), 2))
    else if |s| >= 2 && '1' <= s[0] <= '2' && IsDigit(s[1]) then Some(Field(10 * DigitValue(s[0]) + DigitValue(s[1]), 2))
    else if |s| >= 2 && s[0] == '0' && '1' <= s[1] <= '9' then Some(Field(DigitValue(s[1]), 2))
    else if |s| >= 1 && '1' <= s[0] <= '9' then Some(Field(DigitValue(s[0]), 1))
    else if |s| >= 2 && s[0] == ' ' && '1' <= s[1] <= '9' then Some(Field(DigitValue(s[1]), 2))
    else None
  }

  /** Why `strptime` raised `ValueError`. */
  datatype DateError =
    | NoMatch          // the text does not match the format's expression
    | UnconvertedData  // the expression matched a proper prefix of the text
    | OutOfRange       // year 0, or a day past the end of the month

  /** `datetime.strptime(s, '%Y-%m-%d')`, keeping only the date. */
  function ParseIso(s: string): (r: Result<Date, DateError>)
    ensures r.Ok? ==> ValidDate(r.value)
  {
    match YearField(s)
    case None => Err(NoMatch)
    case Some(y) =>
      if |s| <= 4 || s[4] != '-' then Err(NoMatch)
      else
        match MonthField(s[5..])
        case None => Err(NoMatch)
        case Some(m) =>
          var dash := 5 + m.width;
          if |s| <= dash || s[dash] != '-' then Err(NoMatch)
          else
            match DayField(s[dash + 1..])
            case None => Err(NoMatch)
            case Some(d) =>
              if dash + 1 + d.width < |s| then Err(UnconvertedData)
              else
                var date := Date(y.value, m.value, d.value);
                if ValidDate(date) then Ok(date) else Err(OutOfRange)
  }

  /** The canonical spelling `YYYY-MM-DD`. */
  function IsoText(d: Date): (s: string)
    ensures |s| == 10
  {
    PadDigits(d.year, 4) + "-" + PadDigits(d.month, 2) + "-" + PadDigits(d.day, 2)
  }

  /** The month spellings `%m` reads as `m`: two digits, or one for months before October. */
  function MonthTexts(m: nat): set<string>
  {
    if m < 10 then {PadDigits(m, 2), Decimal(m)} else {PadDigits(m, 2)}
  }

  /** The day spellings `%d` reads as `d`: two digits, or one digit, bare or after a space, below 10. */
  function DayTexts(d: nat): set<string>
  {
    if d < 10 then {PadDigits(d, 2), Decimal(d), " " + Decimal(d)} else {PadDigits(d, 2)}
  }

  lemma TwoDigits(n: nat)
    requires n < 100
    ensures PadDigits(n, 2) == [DigitChar(n / 10), DigitChar(n % 10)]
  {
    var q := n / 10;
    assert q < 10;
    assert PadDigits(q, 1) == [DigitChar(q % 10)];
  }

  lemma OneDigit(n: nat)
    requires n < 10
    ensures Decimal(n) == [DigitChar(n)]
  {
  }

  lemma DigitCharOfValue(c: char)
    requires IsDigit(c)
    ensures DigitChar(DigitValue(c)) == c
  {
  }

  /** Every month spelling is read back by `%m`, whatever follows the `-`. */
  lemma MonthFieldReads(m: nat, t: string, rest: string)
    requires 1 <= m <= 12 && t in MonthTexts(m)
    ensures MonthField(t + "-" + rest) == Some(Field(m, |t|))
  {
    TwoDigits(m);
    if m < 10 {
      OneDigit(m);
    }
    var s := t + "-" + rest;
    assert s[0] == t[0];
    if |t| == 2 {
      assert s[1] == t[1];
    } else {
      assert s[1] == '-';
    }
  }

  /** Every day spelling is read back by `%d`. */
  lemma DayFieldReads(d: nat, t: string)
    requires 1 <= d <= 31 && t in DayTexts(d)
    ensures DayField(t) == Some(Field(d, |t|))
  {
    TwoDigits(d);
    if d < 10 {
      OneDigit(d);
    }
  }

  /** What `%m` matched is one of the month's spellings. */
  lemma MonthFieldSpelling(s: string)
    requires MonthField(s).Some?
    ensures s[..MonthField(s).value.width] in MonthTexts(MonthField(s).value.value)
  {
    var f := MonthField(s).value;
    TwoDigits(f.value);
    if f.value < 10 {
      OneDigit(f.value);
    }
    if f.width == 2 {
      assert s[..2] == [s[0], s[1]];
    } else {
      assert s[..1] == [s[0]];
    }
  }

  /** What `%d` matched is one of the day's spellings. */
  lemma DayFieldSpelling(s: string)
    requires DayField(s).Some?
    ensures s[..DayField(s).value.width] in DayTexts(DayField(s).value.value)
  {
    var f := DayField(s).value;
    TwoDigits(f.value);
    if f.value < 10 {
      OneDigit(f.value);
    }
    if f.width == 2 {
      assert s[..2] == [s[0], s[1]];
      if s[0] == ' ' {
        assert s[..2] == " " + [s[1]];
      } else {
        DigitCharOfValue(s[0]);
        DigitCharOfValue(s[1]);
      }
    } else {
      assert s[..1] == [s[0]];
    }
  }

  /** What `%Y` matched is the year written with four digits. */
  lemma YearFieldSpelling(s: string)
    requires YearField(s).Some?
    ensures s[..4] == PadDigits(YearField(s).value.value, 4)
  {
    PadDigitsOfValue(s[..4]);
  }

  /** A year below 10000 written with four digits is read back by `%Y`. */
  lemma YearFieldReads(y: nat, rest: string)
    requires y < 10000
    ensures YearField(PadDigits(y, 4) + rest) == Some(Field(y, 4))
  {
    var s := PadDigits(y, 4) + rest;
    assert s[..4] == PadDigits(y, 4);
    assert Pow10(4) == 10000;
    PadDigitsRoundTrip(y, 4);
  }

  /** The text a date is read from, given the spellings of its month and day. */
  function Spelled(year: nat, mt: string, dt: string): string
  {
    PadDigits(year, 4) + "-" + mt + "-" + dt
  }

  /** Every spelling of a valid date is read as that date. */
  lemma {:induction false} ParseIsoSpelled(d: Date, mt: string, dt: string)
    requires ValidDate(d) && mt in MonthTexts(d.month) && dt in DayTexts(d.day)
    ensures ParseIso(Spelled(d.year, mt, dt)) == Ok(d)
  {
    YearFieldReads(d.year, "-" + mt + "-" + dt);
    assert Spelled(d.year, mt, dt) == PadDigits(d.year, 4) + ("-" + mt + "-" + dt);
    MonthFieldReads(d.month, mt, dt);
    DayFieldReads(d.day, dt);
    ParseIsoOfFields(PadDigits(d.year, 4), mt, dt, d);
  }

  /** Once each field is known to read its piece, `strptime` returns their date, or refuses it as out of range. */
  lemma {:induction false} ParseIsoOfFields(head: string, mt: string, dt: string, d: Date)
    requires |head| == 4 && YearField(head + ("-" + mt + "-" + dt)) == Some(Field(d.year, 4))
    requires MonthField(mt + "-" + dt) == Some(Field(d.month, |mt|))
    requires DayField(dt) == Some(Field(d.day, |dt|))
    ensures ParseIso(head + "-" + mt + "-" + dt) == if ValidDate(d) then Ok(d) else Err(OutOfRange)
  {
    var s := head + "-" + mt + "-" + dt;
    assert s == head + ("-" + mt + "-" + dt);
    assert s[5..] == mt + "-" + dt;
    assert s[5 + |mt|] == '-';
    assert s[6 + |mt|..] == dt;
  }

  /** `strptime` reads the canonical spelling back as the date it spells. */
  lemma ParseIsoRoundTrip(d: Date)
    requires ValidDate(d)
    ensures ParseIso(IsoText(d)) == Ok(d)
  {
    assert IsoText(d) == Spelled(d.year, PadDigits(d.month, 2), PadDigits(d.day, 2));
    ParseIsoSpelled(d, PadDigits(d.month, 2), PadDigits(d.day, 2));
  }

  /** Whatever `strptime` accepts is one of the spellings of the date it returns. */
  lemma {:induction false} ParseIsoAccepts(s: string)
    requires ParseIso(s).Ok?
    ensures exists mt, dt ::
      mt in MonthTexts(ParseIso(s).value.month) && dt in DayTexts(ParseIso(s).value.day)
      && s == Spelled(ParseIso(s).value.year, mt, dt)
  {
    var d := ParseIso(s).value;
    var m := MonthField(s[5..]).value;
    var dash := 5 + m.width;
    var mt := s[5..dash];
    var dt := s[dash + 1..];
    assert mt in MonthTexts(d.month) by {
      MonthFieldSpelling(s[5..]);
      assert s[5..][..m.width] == mt;
    }
    assert dt in DayTexts(d.day) by {
      DayFieldSpelling(dt);
      assert dt[..DayField(dt).value.width] == dt;
    }
    assert s[..4] == PadDigits(d.year, 4) by {
      YearFieldSpelling(s);
    }
    Reassemble(s, m.width);
  }

  /** A text with a `-` at 4 and at `5 + w` is its three pieces joined by those dashes. */
  lemma Reassemble(s: string, w: nat)
    requires 5 + w < |s| && s[4] == '-' && s[5 + w] == '-'
    ensures s == s[..4] + "-" + s[5..5 + w] + "-" + s[6 + w..]
  {
    assert s == s[..4] + [s[4]] + s[5..5 + w] + [s[5 + w]] + s[6 + w..];
  }

  /** `strftime('%d%m%Y')`: day and month with two digits, then the year as glibc writes it, without padding. */
  function FormatDdmmyyyy(d: Date): (s: string)
    ensures |s| >= 5 && AllDigits(s)
  {
    PadDigits(d.day, 2) + PadDigits(d.month, 2) + Decimal(d.year)
  }

  /** Reading a `ddmmyyyy` text: eight digits naming a valid date. */
  function ParseDdmmyyyy(s: string): (r: Option<Date>)
    ensures r.Some? ==> ValidDate(r.value) && |s| == 8 && AllDigits(s)
  {
    if |s| == 8 && AllDigits(s) then
      var d := Date(DigitsValue(s[4..]), DigitsValue(s[2..4]), DigitsValue(s[..2]));
      if ValidDate(d) then Some(d) else None
    else None
  }

  /** From year 1000 on the rendering has eight characters and reads back as the same date. */
  lemma FormatDdmmyyyyRoundTrip(d: Date)
    requires ValidDate(d) && d.year >= 1000
    ensures |FormatDdmmyyyy(d)| == 8
    ensures ParseDdmmyyyy(FormatDdmmyyyy(d)) == Some(d)
  {
    var s := FormatDdmmyyyy(d);
    FourDigitNumbers(d.year);
    assert s[..2] == PadDigits(d.day, 2);
    assert s[2..4] == PadDigits(d.month, 2);
    assert s[4..] == Decimal(d.year);
    assert Pow10(2) == 100;
    PadDigitsRoundTrip(d.day, 2);
    PadDigitsRoundTrip(d.month, 2);
    DecimalRoundTrip(d.year);
  }

  /** A `ddmmyyyy` text naming a date from year 1000 on is exactly that date's rendering. */
  lemma ParseDdmmyyyyRenders(s: string)
    requires ParseDdmmyyyy(s).Some? && ParseDdmmyyyy(s).value.year >= 1000
    ensures FormatDdmmyyyy(ParseDdmmyyyy(s).value) == s
  {
    var d := ParseDdmmyyyy(s).value;
    PadDigitsOfValue(s[..2]);
    PadDigitsOfValue(s[2..4]);
    PadDigitsOfValue(s[4..]);
    DigitsBelow(s[4..]);
    assert Pow10(4) == 10000;
    FourDigitNumbers(d.year);
    FourDigitDecimal(d.year);
    assert s == s[..2] + s[2..4] + s[4..];
  }

  /** From 1000 to 9999, `str(n)` is the four-digit rendering. */
  lemma FourDigitDecimal(n: nat)
    requires 1000 <= n < 10000
    ensures Decimal(n) == PadDigits(n, 4)
  {
    FourDigitNumbers(n);
  }

  /** A string of digits is the zero-padded rendering of its own value. */
  lemma {:induction false} PadDigitsOfValue(s: string)
    requires AllDigits(s)
    ensures PadDigits(DigitsValue(s), |s|) == s
  {
    if |s| > 0 {
      var front := s[..|s| - 1];
      PadDigitsOfValue(front);
      var n := DigitsValue(s);
      assert n / 10 == DigitsValue(front);
      assert n % 10 == DigitValue(s[|s| - 1]);
      assert s == front + [s[|s| - 1]];
    }
  }
  /** Months and days before the tenth may be written with one digit. */
  lemma ShortSpellingExample()
    ensures ParseIso("2024-1-5") == Ok(Date(2024, 1, 5))
  {
    var d := Date(2024, 1, 5);
    OneDigit(1);
    OneDigit(5);
    assert PadDigits(2024, 4) == "2024";
    assert "2024-1-5" == Spelled(2024, Decimal(1), Decimal(5));
    ParseIsoSpelled(d, Decimal(1), Decimal(5));
  }

  /** February 29th exists in leap years. */
  lemma LeapDayExample()
    ensures ParseIso("2024-02-29") == Ok(Date(2024, 2, 29))
  {
    TwoDigits(2);
    TwoDigits(29);
    assert PadDigits(2024, 4) == "2024";
    assert "2024-02-29" == Spelled(2024, PadDigits(2, 2), PadDigits(29, 2));
    ParseIsoSpelled(Date(2024, 2, 29), PadDigits(2, 2), PadDigits(29, 2));
  }

  /** ... and not in other years: the text matches, the date is refused. */
  lemma NoLeapDayExample()
    ensures ParseIso("2023-02-29") == Err(OutOfRange)
  {
    assert YearField("2023-02-29") == Some(Field(2023, 4)) by {
      assert PadDigits(2023, 4) == "2023";
      YearFieldReads(2023, "-02-29");
      assert "2023-02-29" == PadDigits(2023, 4) + "-02-29";
    }
  }

  /** `%d` takes the single digit `3` of `32`, and the `2` is left over. */
  lemma DayTooLargeExample()
    ensures ParseIso("2024-01-32") == Err(UnconvertedData)
  {
    assert YearField("2024-01-32") == Some(Field(2024, 4)) by {
      assert PadDigits(2024, 4) == "2024";
      YearFieldReads(2024, "-01-32");
      assert "2024-01-32" == PadDigits(2024, 4) + "-01-32";
    }
  }

  /** Year 0 matches `%Y` but is not a year `datetime.date` accepts. */
  lemma YearZeroExample()
    ensures ParseIso("0000-01-01") == Err(OutOfRange)
  {
    assert YearField("0000-01-01") == Some(Field(0, 4)) by {
      assert PadDigits(0, 4) == "0000";
      YearFieldReads(0, "-01-01");
      assert "0000-01-01" == PadDigits(0, 4) + "-01-01";
    }
  }
}

=== FILE: Download.dfy ===
/**
 * The selection step of `BancoEstadoScraper._wait_for_download`: which file of
 * the download directory is taken as the exported statement, and the polling
 * loop around it, with the clock replaced by the sequence of directory
 * listings seen before the timeout.
 */
module Download {
  import opened Wrappers
  import opened Strings

  /** A directory entry: its file name and its creation time (`os.path.getctime`). */
  datatype FileEntry = FileEntry(name: string, ctime: int)

  /** `glob('*.xlsx')`, taken as a suffix match on the file name. */
  predicate GlobXlsx(name: string)
  {
    EndsWith(name, ".xlsx")
  }

  /** The glob plus the filter that drops names ending in `.tmp` or `.crdownload`. */
  predicate IsCandidate(name: string)
  {
    GlobXlsx(name) && !EndsWith(name, ".tmp") && !EndsWith(name, ".crdownload")
  }

  /** A name ending in `.xlsx` ends in neither `.tmp` nor `.crdownload`, so the filter never drops anything. */
  lemma FilterKeepsEveryMatch(name: string)
    ensures IsCandidate(name) <==> GlobXlsx(name)
  {
    if GlobXlsx(name) {
      var n := |name|;
      assert name[n - 5..][4] == 'x';
    }
  }

  /** The candidates of a listing, in listing order. */
  function Candidates(listing: seq<FileEntry>): (cs: seq<FileEntry>)
    ensures |cs| <= |listing|
    ensures forall f :: f in cs ==> f in listing && IsCandidate(f.name)
    ensures forall f :: f in listing && IsCandidate(f.name) ==> f in cs
  {
    if |listing| == 0 then []
    else if IsCandidate(listing[0].name) then [listing[0]] + Candidates(listing[1..])
    else Candidates(listing[1..])
  }

  /** Filtering keeps the listing's order: it acts on each part of a listing separately. */
  lemma {:induction false} CandidatesAppend(a: seq<FileEntry>, b: seq<FileEntry>)
    ensures Candidates(a + b) == Candidates(a) + Candidates(b)
  {
    if |a| > 0 {
      var ab := a + b;
      assert ab[0] == a[0];
      assert ab[1..] == a[1..] + b;
      CandidatesAppend(a[1..], b);
      var head := if IsCandidate(a[0].name) then [a[0]] else [];
      assert Candidates(ab) == head + Candidates(a[1..] + b);
      assert Candidates(a) == head + Candidates(a[1..]);
    } else {
      assert a + b == b;
    }
  }

  /**
   * `files[k]` is what `max(files, key=os.path.getctime)` returns: no file is
   * newer, and every file before it is strictly older (`max` keeps the first
   * of equal keys).
   */
  predicate IsFirstNewest(files: seq<FileEntry>, k: nat)
  {
    k < |files|
    && (forall j :: 0 <= j < |files| ==> files[j].ctime <= files[k].ctime)
    && (forall j :: 0 <= j < k ==> files[j].ctime < files[k].ctime)
  }

  /** At most one position is the first newest. */
  lemma FirstNewestUnique(files: seq<FileEntry>, a: nat, b: nat)
    requires IsFirstNewest(files, a) && IsFirstNewest(files, b)
    ensures a == b
  {
    assert files[a].ctime == files[b].ctime;
  }

  /** The position `max` picks, defined by recursion on the prefix. */
  function NewestIndex(files: seq<FileEntry>): (k: nat)
    requires |files| > 0
    ensures IsFirstNewest(files, k)
  {
    if |files| == 1 then 0
    else
      var front := files[..|files| - 1];
      var k := NewestIndex(front);
      assert forall j :: 0 <= j < |front| ==> front[j] == files[j];
      if files[|files| - 1].ctime > files[k].ctime then |files| - 1 else k
  }

  /** The scan `max` performs: keep the first file, replace it only by a strictly newer one. */
  method SelectNewest(files: seq<FileEntry>) returns (chosen: FileEntry)
    requires |files| > 0
    ensures chosen == files[NewestIndex(files)]
    ensures chosen in files
    ensures forall f :: f in files ==> f.ctime <= chosen.ctime
  {
    var best := 0;
    var i := 1;
    while i < |files|
      invariant 1 <= i <= |files|
      invariant best < i
      invariant forall j :: 0 <= j < i ==> files[j].ctime <= files[best].ctime
      invariant forall j :: 0 <= j < best ==> files[j].ctime < files[best].ctime
    {
      if files[i].ctime > files[best].ctime {
        best := i;
      }
      i := i + 1;
    }
    FirstNewestUnique(files, best, NewestIndex(files));
    chosen := files[best];
  }

  /** The file picked from one listing, if the listing has a candidate. */
  function Pick(listing: seq<FileEntry>): (r: Option<string>)
    ensures r.None? <==> |Candidates(listing)| == 0
    ensures r.Some? ==> exists f :: f in listing && IsCandidate(f.name) && f.name == r.value
  {
    var cs := Candidates(listing);
    if |cs| == 0 then None else Some(cs[NewestIndex(cs)].name)
  }

  /** The name picked is the newest candidate: no candidate of the listing was created later. */
  lemma PickIsNewest(listing: seq<FileEntry>, f: FileEntry)
    requires f in listing && IsCandidate(f.name)
    ensures Pick(listing).Some?
    ensures exists g :: g in listing && IsCandidate(g.name) && g.name == Pick(listing).value && f.ctime <= g.ctime
  {
    var cs := Candidates(listing);
    var k := NewestIndex(cs);
    assert f in cs;
    assert cs[k] in listing;
  }

  /**
   * The name picked is that of the listing's first candidate among those
   * with the latest creation time: ties go to the earlier entry, as `max` does.
   */
  lemma {:induction false} PickFirstNewest(listing: seq<FileEntry>, i: nat)
    requires i < |listing| && IsCandidate(listing[i].name)
    requires forall j :: 0 <= j < |listing| && IsCandidate(listing[j].name) ==> listing[j].ctime <= listing[i].ctime
    requires forall j :: 0 <= j < i && IsCandidate(listing[j].name) ==> listing[j].ctime < listing[i].ctime
    ensures Pick(listing) == Some(listing[i].name)
  {
    var before, after := listing[..i], listing[i + 1..];
    assert listing == before + [listing[i]] + after;
    CandidatesAppend(before + [listing[i]], after);
    CandidatesAppend(before, [listing[i]]);
    assert Candidates([listing[i]]) == [listing[i]] by {
      assert [listing[i]][1..] == [];
    }
    var cs := Candidates(listing);
    var k := |Candidates(before)|;
    assert cs == Candidates(before) + [listing[i]] + Candidates(after);
    assert cs[k] == listing[i];
    forall j | 0 <= j < |cs| ensures cs[j].ctime <= cs[k].ctime {
      assert cs[j] in cs;
    }
    forall j | 0 <= j < k ensures cs[j].ctime < cs[k].ctime {
      assert cs[j] in Candidates(before);
      assert cs[j] in before;
    }
    FirstNewestUnique(cs, k, NewestIndex(cs));
  }

  /**
   * The polling loop: `polls` are the listings seen, one per second, before
   * the timeout. The first listing with a candidate decides; if none has one
   * the wait ends with `None`.
   */
  function WaitForDownload(polls: seq<seq<FileEntry>>): (r: Option<string>)
    ensures r.None? <==> forall i :: 0 <= i < |polls| ==> Pick(polls[i]).None?
  {
    if |polls| == 0 then None
    else if Pick(polls[0]).Some? then Pick(polls[0])
    else WaitForDownload(polls[1..])
  }

  /** The answer is the pick of the first listing that has a candidate. */
  lemma {:induction false} WaitTakesFirstHit(polls: seq<seq<FileEntry>>, i: nat)
    requires i < |polls| && Pick(polls[i]).Some?
    requires forall j :: 0 <= j < i ==> Pick(polls[j]).None?
    ensures WaitForDownload(polls) == Pick(polls[i])
  {
    if i > 0 {
      WaitTakesFirstHit(polls[1..], i - 1);
    }
  }

  /** Listings after the first hit are never looked at. */
  lemma WaitIgnoresLaterPolls(polls: seq<seq<FileEntry>>, i: nat, later: seq<seq<FileEntry>>)
    requires i < |polls| && Pick(polls[i]).Some?
    requires forall j :: 0 <= j < i ==> Pick(polls[j]).None?
    ensures WaitForDownload(polls[..i + 1] + later) == WaitForDownload(polls)
  {
    var longer := polls[..i + 1] + later;
    assert forall j :: 0 <= j <= i ==> longer[j] == polls[j];
    WaitTakesFirstHit(polls, i);
    WaitTakesFirstHit(longer, i);
  }
}

=== FILE: Export.dfy ===
/**
 * What `BancoEstadoScraper.extract_movements` does with the exported account
 * statement once it has been read into a table: rename the columns, keep the
 * rows before the first row without a date, check that the debit and credit
 * columns exist, build one movement per row, and hand a non-empty result to
 * the store.
 */
module Export {
  import opened Wrappers
  import opened Amount

  /**
   * One data row of the statement, seen through the names the parser uses
   * after renaming. A blank cell is `None`. A field whose column the sheet
   * does not have is never looked at.
   */
  datatype Row = Row(
    fecha: Option<string>,
    descripcion: Option<string>,
    cargo: Option<string>,
    abono: Option<string>)

  /** The labels of the header row and the data rows below it. */
  datatype Sheet = Sheet(labels: set<string>, rows: seq<Row>)

  /** One account movement, as the scraper returns and stores it. */
  datatype Movement = Movement(fecha: string, descripcion: string, monto: real)

  /** `column_map`: the statement's labels and the names they are renamed to. */
  const ColumnMap: map<string, string> := map[
    "Fecha" := "fecha",
    "Descripción" := "descripcion",
    "Cheques / Cargos $" := "cargo_excel",
    "Depósitos / Abonos $" := "abono_excel"]

  /** The name a heading has after `df.rename(columns=column_map)`. */
  function RenameLabel(heading: string): string
  {
    if heading in ColumnMap then ColumnMap[heading] else heading
  }

  /**
   * The column names after renaming: a target name is present when its
   * heading or the name itself was; no mapped heading survives under its old
   * name; every other heading keeps its name.
   */
  function Renamed(labels: set<string>): (names: set<string>)
    ensures forall h :: h in ColumnMap ==> (ColumnMap[h] in names <==> h in labels || ColumnMap[h] in labels)
    ensures forall h :: h in ColumnMap ==> h !in names
    ensures forall n :: n !in ColumnMap && n !in ColumnMap.Values ==> (n in names <==> n in labels)
  {
    var names := set l | l in labels :: RenameLabel(l);
    MappedHeadings(labels, names);
    names
  }

  /** What the comprehension of `Renamed` holds, for each kind of name. */
  lemma MappedHeadings(labels: set<string>, names: set<string>)
    requires names == set l | l in labels :: RenameLabel(l)
    ensures forall h :: h in ColumnMap ==> (ColumnMap[h] in names <==> h in labels || ColumnMap[h] in labels)
    ensures forall h :: h in ColumnMap ==> h !in names
    ensures forall n :: n !in ColumnMap && n !in ColumnMap.Values ==> (n in names <==> n in labels)
  {
    assert ColumnMap.Keys == {"Fecha", "Descripción", "Cheques / Cargos $", "Depósitos / Abonos $"};
    assert ColumnMap.Values == {"fecha", "descripcion", "cargo_excel", "abono_excel"};
    forall h | h in ColumnMap
      ensures ColumnMap[h] in names <==> h in labels || ColumnMap[h] in labels
    {
      if ColumnMap[h] in names {
        var l :| l in labels && RenameLabel(l) == ColumnMap[h];
        assert l == h || l == ColumnMap[h];
      } else {
        assert RenameLabel(ColumnMap[h]) == ColumnMap[h];
      }
    }
    forall h | h in ColumnMap
      ensures h !in names
    {
      assert forall l :: l in labels ==> RenameLabel(l) != h;
    }
    forall n | n !in ColumnMap && n !in ColumnMap.Values
      ensures n in names <==> n in labels
    {
      if n in names {
        var l :| l in labels && RenameLabel(l) == n;
      } else {
        assert RenameLabel(n) == n;
      }
    }
  }

  /** A column reaches the parser under `name` exactly when its heading or the heading mapped to it is present. */
  lemma RenamedHas(labels: set<string>, name: string, heading: string)
    requires heading in ColumnMap && ColumnMap[heading] == name
    requires name !in ColumnMap
    ensures name in Renamed(labels) <==> (heading in labels || name in labels)
  {
    if name in Renamed(labels) {
      var l :| l in labels && RenameLabel(l) == name;
      if l in ColumnMap {
        assert l == heading by {
          assert l in ColumnMap.Keys;
          assert l == "Fecha" || l == "Descripción" || l == "Cheques / Cargos $" || l == "Depósitos / Abonos $";
        }
      }
    }
  }

  /** The statement as exported by the bank: its labels reach the parser under the expected names. */
  lemma BankLabelsRenamed()
    ensures Renamed({"Fecha", "Descripción", "Cheques / Cargos $", "Depósitos / Abonos $"})
      == {"fecha", "descripcion", "cargo_excel", "abono_excel"}
  {
    var labels := {"Fecha", "Descripción", "Cheques / Cargos $", "Depósitos / Abonos $"};
    assert RenameLabel("Fecha") == "fecha";
    assert RenameLabel("Descripción") == "descripcion";
    assert RenameLabel("Cheques / Cargos $") == "cargo_excel";
    assert RenameLabel("Depósitos / Abonos $") == "abono_excel";
  }

  /** `df.index[df['fecha'].isna()]` restricted to rows `from` onwards: the undated rows, in order. */
  function MissingDates(rows: seq<Row>, from: nat): (ix: seq<nat>)
    requires from <= |rows|
    ensures forall k :: 0 <= k < |ix| ==> from <= ix[k] < |rows| && rows[ix[k]].fecha.None?
    ensures forall i :: from <= i < |rows| && rows[i].fecha.None? ==> i in ix
    ensures forall k, l :: 0 <= k < l < |ix| ==> ix[k] < ix[l]
    decreases |rows| - from
  {
    if from == |rows| then []
    else if rows[from].fecha.None? then [from] + MissingDates(rows, from + 1)
    else MissingDates(rows, from + 1)
  }

  /** Every row has a date. */
  predicate AllDated(rows: seq<Row>)
  {
    forall i :: 0 <= i < |rows| ==> rows[i].fecha.Some?
  }

  /**
   * The rows kept: those before the first row without a date, or all of them
   * when every row has one (`df[df.index < first_invalid_index]`).
   */
  function KeptRows(rows: seq<Row>): (kept: seq<Row>)
    ensures kept <= rows
    ensures AllDated(kept)
    ensures |kept| < |rows| ==> rows[|kept|].fecha.None?
  {
    var missing := MissingDates(rows, 0);
    if |missing| == 0 then rows else rows[..missing[0]]
  }

  /** The three facts above pin the kept prefix down: it ends at the first undated row. */
  lemma KeptRowsUnique(rows: seq<Row>, n: nat)
    requires n <= |rows|
    requires AllDated(rows[..n])
    requires n < |rows| ==> rows[n].fecha.None?
    ensures KeptRows(rows) == rows[..n]
  {
  }

  /** A table whose rows all have dates is kept whole. */
  lemma AllDatedKeptWhole(rows: seq<Row>)
    requires AllDated(rows)
    ensures KeptRows(rows) == rows
  {
    KeptRowsUnique(rows, |rows|);
    assert rows[..|rows|] == rows;
  }

  /** Truncating twice changes nothing. */
  lemma KeptRowsIdempotent(rows: seq<Row>)
    ensures KeptRows(KeptRows(rows)) == KeptRows(rows)
  {
    AllDatedKeptWhole(KeptRows(rows));
  }

  /** Rows after the first undated row never matter, whatever they hold. */
  lemma KeptRowsIgnoresTail(front: seq<Row>, blank: Row, tail: seq<Row>)
    requires AllDated(front) && blank.fecha.None?
    ensures KeptRows(front + [blank] + tail) == front
  {
    var rows := front + [blank] + tail;
    assert rows[..|front|] == front;
    KeptRowsUnique(rows, |front|);
  }

  /** The scan of the date column: the number of rows before the first blank date. */
  method DatedPrefixLength(rows: seq<Row>) returns (n: nat)
    ensures n == |KeptRows(rows)|
    ensures rows[..n] == KeptRows(rows)
  {
    n := 0;
    while n < |rows| && rows[n].fecha.Some?
      invariant n <= |rows|
      invariant AllDated(rows[..n])
    {
      assert rows[..n + 1] == rows[..n] + [rows[n]];
      n := n + 1;
    }
    KeptRowsUnique(rows, n);
  }

  /** `str()` of a text cell after `astype(str)`: a blank cell becomes the text `nan`. */
  function CellText(cell: Option<string>): (t: string)
    ensures cell.Some? ==> t == cell.value
    ensures cell.None? ==> t == "nan"
  {
    match cell
    case Some(v) => v
    case None => "nan"
  }

  /** The movement of one dated row: credit plus debit, each cleaned by `clean_monto`. */
  function ToMovement(row: Row): (m: Movement)
    requires row.fecha.Some?
    ensures m.fecha == row.fecha.value
    ensures row.descripcion.Some? ==> m.descripcion == row.descripcion.value
    ensures row.cargo.None? ==> m.monto == CleanAmount(row.abono)
    ensures row.abono.None? ==> m.monto == CleanAmount(row.cargo)
  {
    Movement(row.fecha.value, CellText(row.descripcion),
      CleanAmount(row.abono) + CleanAmount(row.cargo))
  }

  /**
   * A dated row with one amount cell blank and the other holding a
   * comma-decimal amount, as the bank exports it, becomes a movement of
   * exactly that signed amount.
   */
  lemma {:induction false} ToMovementOfExportedAmount(row: Row, negative: bool, whole: nat, frac: nat, scale: nat)
    requires row.fecha.Some? && frac < Strings.Pow10(scale)
    requires (row.abono.None? && row.cargo == Some(CommaDecimal(negative, whole, frac, scale)))
      || (row.cargo.None? && row.abono == Some(CommaDecimal(negative, whole, frac, scale)))
    ensures ToMovement(row).monto == DecimalValue(negative, whole, frac, scale)
  {
    CleanCommaDecimal(negative, whole, frac, scale);
  }

  /** `df[['fecha', 'descripcion', 'monto']].to_dict('records')` over the kept rows. */
  function BuildMovements(rows: seq<Row>): (ms: seq<Movement>)
    requires AllDated(rows)
    ensures |ms| == |rows|
    ensures forall i :: 0 <= i < |rows| ==> ms[i] == ToMovement(rows[i])
  {
    if |rows| == 0 then [] else [ToMovement(rows[0])] + BuildMovements(rows[1..])
  }

  /** Building movements row by row distributes over concatenation. */
  lemma {:induction false} BuildMovementsAppend(a: seq<Row>, b: seq<Row>)
    requires AllDated(a) && AllDated(b)
    ensures AllDated(a + b)
    ensures BuildMovements(a + b) == BuildMovements(a) + BuildMovements(b)
  {
    assert AllDated(a + b) by {
      forall i | 0 <= i < |a + b| ensures (a + b)[i].fecha.Some? {
        if i < |a| { assert (a + b)[i] == a[i]; } else { assert (a + b)[i] == b[i - |a|]; }
      }
    }
    if |a| > 0 {
      assert (a + b)[1..] == a[1..] + b;
      BuildMovementsAppend(a[1..], b);
    }
  }

  /** The renamed table has the columns `fecha`, `descripcion`, `cargo_excel` and `abono_excel`. */
  predicate HasColumns(names: set<string>)
  {
    "fecha" in names && "descripcion" in names && "cargo_excel" in names && "abono_excel" in names
  }

  /**
   * The movements a readable statement yields. A missing `fecha` column is a
   * `KeyError`, caught, and the initial empty list is returned; an empty kept
   * prefix returns `[]` before the columns are checked; missing debit or
   * credit columns return `[]`; a missing `descripcion` is a `KeyError` at the
   * column selection, again leaving the empty list.
   */
  function ParseSheet(sheet: Sheet): (ms: seq<Movement>)
    ensures |ms| > 0 <==>
      HasColumns(Renamed(sheet.labels)) && |sheet.rows| > 0 && sheet.rows[0].fecha.Some?
    ensures |ms| > 0 ==> ms == BuildMovements(KeptRows(sheet.rows))
  {
    var names := Renamed(sheet.labels);
    if "fecha" !in names then []
    else
      var kept := KeptRows(sheet.rows);
      if |kept| == 0 then []
      else if !("cargo_excel" in names && "abono_excel" in names) then []
      else if "descripcion" !in names then []
      else BuildMovements(kept)
  }

  /** With all four columns present, the movements are exactly those of the rows before the first blank date. */
  lemma ParseSheetRows(sheet: Sheet)
    requires HasColumns(Renamed(sheet.labels))
    ensures ParseSheet(sheet) == BuildMovements(KeptRows(sheet.rows))
    ensures |ParseSheet(sheet)| == |KeptRows(sheet.rows)|
  {
  }

  /** A statement whose first row has no date yields nothing, whatever its columns. */
  lemma UndatedFirstRowYieldsNothing(sheet: Sheet)
    requires |sheet.rows| > 0 && sheet.rows[0].fecha.None?
    ensures ParseSheet(sheet) == []
  {
  }

  /** The outcome of waiting for the export and reading it. */
  datatype Download =
    | TimedOut           // `_wait_for_download` returned `None`
    | Unreadable         // the read raised (file gone, engine missing, other error)
    | Loaded(sheet: Sheet)

  /** The list returned, whether it was offered to the store, and what the store answered. */
  datatype Extraction = Extraction(movements: seq<Movement>, saveAttempted: bool, saved: bool)

  /**
   * The tail of `extract_movements`: the list is handed to `save` only when it
   * is non-empty, the answer of `save` is only reported, and the list is
   * returned either way.
   */
  function Extract(download: Download, save: seq<Movement> -> bool): (e: Extraction)
    ensures e.saveAttempted <==> |e.movements| > 0
    ensures e.saved ==> e.saveAttempted && save(e.movements)
    ensures e.saveAttempted && save(e.movements) ==> e.saved
    ensures !download.Loaded? ==> e.movements == []
    ensures download.Loaded? ==> e.movements == ParseSheet(download.sheet)
  {
    var ms := if download.Loaded? then ParseSheet(download.sheet) else [];
    if |ms| > 0 then Extraction(ms, true, save(ms)) else Extraction(ms, false, false)
  }

  /**
   * Whether the store accepts or refuses never changes the movements returned
   * as built here, nor whether saving was attempted.
   */
  lemma ExtractIgnoresStore(download: Download, save1: seq<Movement> -> bool, save2: seq<Movement> -> bool)
    ensures Extract(download, save1).movements == Extract(download, save2).movements
    ensures Extract(download, save1).saveAttempted == Extract(download, save2).saveAttempted
  {
  }

  /** With all four columns present, only the rows before the first blank date become movements. */
  lemma ParseSheetStopsAtBlankDate(labels: set<string>, front: seq<Row>, blank: Row, tail: seq<Row>)
    requires HasColumns(Renamed(labels))
    requires AllDated(front) && blank.fecha.None?
    ensures ParseSheet(Sheet(labels, front + [blank] + tail)) == BuildMovements(front)
  {
    KeptRowsIgnoresTail(front, blank, tail);
  }

  // The row is pinned by a `requires` rather than written into the `ensures`,
  // so that the verifier does not unfold the cleaning functions on literal cells.
  lemma DebitRow(row: Row)
    requires row == Row(Some("01/02/2024"), Some("Compra"), Some("-25.000"), None)
    ensures ToMovement(row) == Movement("01/02/2024", "Compra", -25000.0)
  {
    DebitExample(row.cargo.value);
  }

  // The row is pinned by a `requires` rather than written into the `ensures`,
  // so that the verifier does not unfold the cleaning functions on literal cells.
  lemma CreditRow(row: Row)
    requires row == Row(Some("02/02/2024"), None, None, Some("1.500,00"))
    ensures ToMovement(row) == Movement("02/02/2024", "nan", 1500.0)
  {
    ThousandsExample();
  }

  lemma BuildTwo(r0: Row, r1: Row)
    requires r0.fecha.Some? && r1.fecha.Some?
    ensures BuildMovements([r0, r1]) == [ToMovement(r0), ToMovement(r1)]
  {
    assert [r0, r1][1..] == [r1];
  }

  // The rows are pinned by a `requires` rather than written into the `ensures`,
  // so that the verifier does not unfold the cleaning functions on literal cells.
  lemma ExampleMovements(front: seq<Row>)
    requires front == [Row(Some("01/02/2024"), Some("Compra"), Some("-25.000"), None),
                       Row(Some("02/02/2024"), None, None, Some("1.500,00"))]
    ensures BuildMovements(front) == [Movement("01/02/2024", "Compra", -25000.0), Movement("02/02/2024", "nan", 1500.0)]
  {
    DebitRow(front[0]);
    CreditRow(front[1]);
    BuildTwo(front[0], front[1]);
  }

  /**
   * A statement with a debit, a credit, then a row without a date: the rows
   * from the blank date on are dropped, and each amount is read from its
   * Chilean-formatted cell.
   */
  lemma StatementExample()
    ensures ParseSheet(Sheet(
      {"Fecha", "Descripción", "Cheques / Cargos $", "Depósitos / Abonos $"},
      [Row(Some("01/02/2024"), Some("Compra"), Some("-25.000"), None),
       Row(Some("02/02/2024"), None, None, Some("1.500,00")),
       Row(None, Some("Saldo"), None, None),
       Row(Some("03/02/2024"), Some("Otro"), Some("-1"), None)]))
      == [Movement("01/02/2024", "Compra", -25000.0), Movement("02/02/2024", "nan", 1500.0)]
  {
    var front := [Row(Some("01/02/2024"), Some("Compra"), Some("-25.000"), None),
                  Row(Some("02/02/2024"), None, None, Some("1.500,00"))];
    var blank := Row(None, Some("Saldo"), None, None);
    var tail := [Row(Some("03/02/2024"), Some("Otro"), Some("-1"), None)];
    assert [front[0], front[1], blank, tail[0]] == front + [blank] + tail;
    BankLabelsRenamed();
    ParseSheetStopsAtBlankDate({"Fecha", "Descripción", "Cheques / Cargos $", "Depósitos / Abonos $"}, front, blank, tail);
    ExampleMovements(front);
  }
}

=== FILE: MultiScrape.dfy ===
/**
 * The command line of `scripts/multi_scrape.py`: the `--date-range` argument
 * checked and converted by `parse_date_range`, and the credentials taken
 * from the flags or, failing that, from the environment.
 */
module MultiScrape {
  import opened Wrappers
  import opened Strings
  import opened Calendar

  /** Why `parse_date_range` raised `argparse.ArgumentTypeError`. */
  datatype RangeError =
    | WrongPartCount(parts: nat)    // unpacking `split(':')` into two names failed
    | BadSince(reason: DateError)   // the first date was refused by `strptime`
    | BadUntil(reason: DateError)   // the second date was refused by `strptime`
    | SinceAfterUntil               // the first date is later than the second

  /**
   * `parse_date_range`: `YYYY-MM-DD:YYYY-MM-DD` to the pair of `ddmmyyyy`
   * texts the scraper types into the bank's search form.
   */
  function ParseDateRange(arg: string): (r: Result<(string, string), RangeError>)
    ensures r.Ok? <==>
      |Split(arg, ':')| == 2
      && ParseIso(Split(arg, ':')[0]).Ok? && ParseIso(Split(arg, ':')[1]).Ok?
      && !Before(ParseIso(Split(arg, ':')[1]).value, ParseIso(Split(arg, ':')[0]).value)
    ensures r.Ok? ==> r.value == (FormatDdmmyyyy(ParseIso(Split(arg, ':')[0]).value),
                                  FormatDdmmyyyy(ParseIso(Split(arg, ':')[1]).value))
    ensures r == Err(WrongPartCount(Count(arg, ':') + 1)) <==> Count(arg, ':') != 1
  {
    var parts := Split(arg, ':');
    if |parts| != 2 then Err(WrongPartCount(|parts|))
    else
      match ParseIso(parts[0])
      case Err(e) => Err(BadSince(e))
      case Ok(since) =>
        match ParseIso(parts[1])
        case Err(e) => Err(BadUntil(e))
        case Ok(until) =>
          if Before(until, since) then Err(SinceAfterUntil)
          else Ok((FormatDdmmyyyy(since), FormatDdmmyyyy(until)))
  }

  /** The range argument written for two dates. */
  function RangeText(since: Date, until: Date): string
  {
    IsoText(since) + ":" + IsoText(until)
  }

  /** Two valid dates in order are accepted, as their `ddmmyyyy` renderings in that order. */
  lemma ParseDateRangeAccepts(since: Date, until: Date)
    requires ValidDate(since) && ValidDate(until) && !Before(until, since)
    ensures ParseDateRange(RangeText(since, until)) == Ok((FormatDdmmyyyy(since), FormatDdmmyyyy(until)))
  {
    SplitRange(since, until);
    ParseIsoRoundTrip(since);
    ParseIsoRoundTrip(until);
  }

  /** From year 1000 on, the renderings returned also read back as the dates. */
  lemma ParseDateRangeRoundTrip(since: Date, until: Date)
    requires ValidDate(since) && ValidDate(until) && !Before(until, since)
    requires since.year >= 1000 && until.year >= 1000
    ensures ParseDateRange(RangeText(since, until)) == Ok((FormatDdmmyyyy(since), FormatDdmmyyyy(until)))
    ensures ParseDdmmyyyy(ParseDateRange(RangeText(since, until)).value.0) == Some(since)
    ensures ParseDdmmyyyy(ParseDateRange(RangeText(since, until)).value.1) == Some(until)
  {
    ParseDateRangeAccepts(since, until);
    FormatDdmmyyyyRoundTrip(since);
    FormatDdmmyyyyRoundTrip(until);
  }

  /** A range written with the later date first is refused. */
  lemma ReversedRangeRefused(since: Date, until: Date)
    requires ValidDate(since) && ValidDate(until) && Before(until, since)
    ensures ParseDateRange(RangeText(since, until)) == Err(SinceAfterUntil)
  {
    SplitRange(since, until);
    ParseIsoRoundTrip(since);
    ParseIsoRoundTrip(until);
  }

  /** A single day is a valid range. */
  lemma SingleDayRange(d: Date)
    requires ValidDate(d)
    ensures ParseDateRange(RangeText(d, d)) == Ok((FormatDdmmyyyy(d), FormatDdmmyyyy(d)))
  {
    SplitRange(d, d);
    ParseIsoRoundTrip(d);
  }

  /** Canonical date texts hold no colon, so the range splits into exactly the two dates. */
  lemma SplitRange(since: Date, until: Date)
    ensures Split(RangeText(since, until), ':') == [IsoText(since), IsoText(until)]
  {
    NoColonInIso(since);
    NoColonInIso(until);
    SplitAfter(IsoText(since), ':', IsoText(until));
    SplitNoSep(IsoText(until), ':');
  }

  lemma NoColonInIso(d: Date)
    ensures ':' !in IsoText(d)
  {
    var s := IsoText(d);
    forall k | 0 <= k < |s| ensures s[k] != ':' {
      assert s[k] in PadDigits(d.year, 4) + PadDigits(d.month, 2) + PadDigits(d.day, 2) || s[k] == '-';
    }
  }

  /** The command line as `argparse` delivers it, and the two environment variables read. */
  datatype Args = Args(dateRange: Option<string>, username: Option<string>, password: Option<string>)
  datatype Env = Env(rut: Option<string>, clave: Option<string>)

  /** What `main` has once the arguments are settled. */
  datatype Config = Config(since: string, until: string, username: string, password: string)

  /** Why `main` stopped with a usage error before scraping. */
  datatype StartError =
    | MissingDateRange            // `--date-range` is required
    | BadDateRange(e: RangeError) // its type function refused it
    | MissingUsername             // no `--username` and no `RUT`
    | MissingPassword             // no `--password` and no `CLAVE`

  /** A value Python treats as true: present and not the empty string. */
  predicate Given(v: Option<string>)
  {
    v.Some? && |v.value| > 0
  }

  /** `x = flag; if not x: x = os.getenv(name)`, and `None` when that is still false. */
  function Resolve(flag: Option<string>, env: Option<string>): (r: Option<string>)
    ensures r.Some? <==> Given(flag) || Given(env)
    ensures r.Some? ==> |r.value| > 0
    ensures Given(flag) ==> r == flag
    ensures !Given(flag) && Given(env) ==> r == env
  {
    if Given(flag) then flag else if Given(env) then env else None
  }

  /**
   * The start of `main`: `parse_args` settles the date range first, then the
   * username is resolved, then the password; the first failure ends the run.
   */
  function Configure(args: Args, env: Env): (r: Result<Config, StartError>)
    ensures args.dateRange.None? ==> r == Err(MissingDateRange)
    ensures args.dateRange.Some? && ParseDateRange(args.dateRange.value).Err? ==>
      r == Err(BadDateRange(ParseDateRange(args.dateRange.value).error))
    ensures r.Ok? <==>
      args.dateRange.Some? && ParseDateRange(args.dateRange.value).Ok?
      && (Given(args.username) || Given(env.rut))
      && (Given(args.password) || Given(env.clave))
    ensures r == Err(MissingPassword) ==> Given(args.username) || Given(env.rut)
    ensures r.Ok? ==>
      (r.value.since, r.value.until) == ParseDateRange(args.dateRange.value).value
      && Some(r.value.username) == Resolve(args.username, env.rut)
      && Some(r.value.password) == Resolve(args.password, env.clave)
  {
    match args.dateRange
    case None => Err(MissingDateRange)
    case Some(text) =>
      match ParseDateRange(text)
      case Err(e) => Err(BadDateRange(e))
      case Ok(range) =>
        match Resolve(args.username, env.rut)
        case None => Err(MissingUsername)
        case Some(user) =>
          match Resolve(args.password, env.clave)
          case None => Err(MissingPassword)
          case Some(pass) => Ok(Config(range.0, range.1, user, pass))
  }

  /** A flag given on the command line always wins over the environment. */
  lemma FlagsWin(args: Args, env1: Env, env2: Env)
    requires Given(args.username) && Given(args.password)
    ensures Configure(args, env1) == Configure(args, env2)
  {
  }

  /** With both credentials missing everywhere, the username is the one reported. */
  lemma UsernameReportedFirst(args: Args, env: Env)
    requires args.dateRange.Some? && ParseDateRange(args.dateRange.value).Ok?
    requires !Given(args.username) && !Given(env.rut)
    ensures Configure(args, env) == Err(MissingUsername)
  {
  }

  lemma FirstOfJanuaryText()
    ensures IsoText(Date(2024, 1, 1)) == "2024-01-01"
  {
    TwoDigits(1);
    assert PadDigits(2024, 4) == "2024";
  }

  lemma LastOfJanuaryText()
    ensures IsoText(Date(2024, 1, 31)) == "2024-01-31"
  {
    TwoDigits(1);
    TwoDigits(31);
    assert PadDigits(2024, 4) == "2024";
  }

  lemma FirstOfJanuaryRendering()
    ensures FormatDdmmyyyy(Date(2024, 1, 1)) == "01012024"
  {
    TwoDigits(1);
    FourDigitDecimal(2024);
    assert PadDigits(2024, 4) == "2024";
  }

  lemma LastOfJanuaryRendering()
    ensures FormatDdmmyyyy(Date(2024, 1, 31)) == "31012024"
  {
    TwoDigits(1);
    TwoDigits(31);
    FourDigitDecimal(2024);
    assert PadDigits(2024, 4) == "2024";
  }

  /** January 2024, as typed on the command line. */
  lemma JanuaryExample()
    ensures ParseDateRange("2024-01-01" + ":" + "2024-01-31") == Ok(("01012024", "31012024"))
  {
    FirstOfJanuaryText();
    LastOfJanuaryText();
    FirstOfJanuaryRendering();
    LastOfJanuaryRendering();
    ParseDateRangeRoundTrip(Date(2024, 1, 1), Date(2024, 1, 31));
  }

  /** The same month with the dates swapped is refused. */
  lemma SwappedJanuaryExample()
    ensures ParseDateRange("2024-01-31" + ":" + "2024-01-01") == Err(SinceAfterUntil)
  {
    FirstOfJanuaryText();
    LastOfJanuaryText();
    ReversedRangeRefused(Date(2024, 1, 31), Date(2024, 1, 1));
  }

  /** A single date without the colon is refused before any date is read. */
  lemma MissingColonExample()
    ensures ParseDateRange("2024-01-01") == Err(WrongPartCount(1))
  {
    CountZero("2024-01-01", ':');
  }
}

=== FILE: Strings.dfy ===
/**
 * The string primitives the scraper leans on, with the meaning Python gives them:
 * `str.replace` of one character, `str.strip()`, `str.split(sep)`, `str.endswith`,
 * and the decimal digit conversions behind `int()` and zero-padded formatting.
 */
module Strings {

  /** Number of occurrences of `x` in `s`. */
  function Count(s: string, x: char): nat
  {
    if |s| == 0 then 0 else (if s[0] == x then 1 else 0) + Count(s[1..], x)
  }

  lemma {:induction false} CountAppend(a: string, b: string)
    ensures forall x :: Count(a + b, x) == Count(a, x) + Count(b, x)
  {
    if |a| == 0 {
      assert a + b == b;
    } else {
      assert (a + b)[1..] == a[1..] + b;
      CountAppend(a[1..], b);
    }
  }

  lemma CountZero(s: string, x: char)
    requires forall k :: 0 <= k < |s| ==> s[k] != x
    ensures Count(s, x) == 0
  {
  }

  lemma CountPositive(s: string, k: nat)
    requires k < |s|
    ensures Count(s, s[k]) > 0
  {
    if k > 0 {
      CountPositive(s[1..], k - 1);
    }
  }

  /**
   * `s.replace(c, repl)` for a one-character pattern: every occurrence of `c`
   * is replaced by `repl`, everything else is kept in order.
   */
  function Replace(s: string, c: char, repl: string): (r: string)
    ensures c !in repl ==> c !in r
  {
    if |s| == 0 then []
    else (if s[0] == c then repl else [s[0]]) + Replace(s[1..], c, repl)
  }

  /** Deleting `c` removes all of its occurrences and keeps every other character's. */
  lemma {:induction false} RemoveCount(s: string, c: char, x: char)
    ensures Count(Replace(s, c, ""), x) == if x == c then 0 else Count(s, x)
  {
    if |s| > 0 {
      RemoveCount(s[1..], c, x);
      CountAppend(if s[0] == c then "" else [s[0]], Replace(s[1..], c, ""));
    }
  }

  /** Swapping `c` for `d` moves the occurrences of `c` over to `d`. */
  lemma {:induction false} SwapCount(s: string, c: char, d: char, x: char)
    requires c != d
    ensures Count(Replace(s, c, [d]), x) ==
      if x == c then 0 else if x == d then Count(s, d) + Count(s, c) else Count(s, x)
  {
    if |s| > 0 {
      SwapCount(s[1..], c, d, x);
      CountAppend(if s[0] == c then [d] else [s[0]], Replace(s[1..], c, [d]));
    }
  }

  /** `s.replace(c, repl)` distributes over concatenation. */
  lemma {:induction false} ReplaceAppend(a: string, b: string, c: char, repl: string)
    ensures Replace(a + b, c, repl) == Replace(a, c, repl) + Replace(b, c, repl)
  {
    if |a| > 0 {
      assert (a + b)[1..] == a[1..] + b;
      ReplaceAppend(a[1..], b, c, repl);
    } else {
      assert a + b == b;
    }
  }

  /** Replacing a character that does not occur changes nothing. */
  lemma {:induction false} ReplaceAbsent(s: string, c: char, repl: string)
    requires c !in s
    ensures Replace(s, c, repl) == s
  {
    if |s| > 0 {
      ReplaceAbsent(s[1..], c, repl);
      assert s == [s[0]] + s[1..];
    }
  }

  /** `s.replace(c, "")` on one character. */
  lemma ReplaceSingle(x: char, c: char)
    ensures Replace([x], c, "") == if x == c then [] else [x]
  {
    assert [x][1..] == [];
  }

  /** `str.isspace()` for one character: the characters `str.strip()` removes. */
  predicate IsSpace(c: char)
  {
    || c == ' ' || c == '\t' || c == '\n' || c == '\r' || c == '\U{000B}' || c == '\U{000C}'
    || ('\U{001C}' <= c <= '\U{001F}') || c == '\U{0085}' || c == '\U{00A0}' || c == '\U{1680}'
    || ('\U{2000}' <= c <= '\U{200A}') || c == '\U{2028}' || c == '\U{2029}' || c == '\U{202F}'
    || c == '\U{205F}' || c == '\U{3000}'
  }

  /** Index of the first non-space character at or after `i` (or `|s|`). */
  function SkipSpaces(s: string, i: nat): (j: nat)
    requires i <= |s|
    ensures i <= j <= |s|
    ensures forall k :: i <= k < j ==> IsSpace(s[k])
    ensures j < |s| ==> !IsSpace(s[j])
    decreases |s| - i
  {
    if i == |s| || !IsSpace(s[i]) then i else SkipSpaces(s, i + 1)
  }

  /** One past the last non-space character before `j`, not going below `lo`. */
  function BackSpaces(s: string, lo: nat, j: nat): (e: nat)
    requires lo <= j <= |s|
    ensures lo <= e <= j
    ensures forall k :: e <= k < j ==> IsSpace(s[k])
    ensures e > lo ==> !IsSpace(s[e - 1])
    decreases j
  {
    if j == lo || !IsSpace(s[j - 1]) then j else BackSpaces(s, lo, j - 1)
  }

  /** `s.strip()`: leading and trailing white space removed, nothing else touched. */
  function Strip(s: string): (r: string)
    ensures |r| <= |s|
    ensures |r| == 0 || (!IsSpace(r[0]) && !IsSpace(r[|r| - 1]))
    ensures (forall k :: 0 <= k < |s| ==> !IsSpace(s[k])) ==> r == s
  {
    var i := SkipSpaces(s, 0);
    s[i..BackSpaces(s, i, |s|)]
  }

  /** Stripping only ever removes white space: other characters keep every occurrence. */
  lemma StripCount(s: string, x: char)
    ensures Count(Strip(s), x) <= Count(s, x)
    ensures !IsSpace(x) ==> Count(Strip(s), x) == Count(s, x)
  {
    var i := SkipSpaces(s, 0);
    var j := BackSpaces(s, i, |s|);
    var r := s[i..j];
    assert s == s[..i] + r + s[j..];
    CountAppend(s[..i], r);
    CountAppend(s[..i] + r, s[j..]);
    if !IsSpace(x) {
      CountZero(s[..i], x);
      CountZero(s[j..], x);
    }
  }

  /** `s.split(sep)`: the pieces between separators, always at least one. */
  function Split(s: string, sep: char): (parts: seq<string>)
    ensures |parts| == Count(s, sep) + 1
    ensures forall p :: p in parts ==> sep !in p
  {
    if |s| == 0 then [""]
    else if s[0] == sep then [""] + Split(s[1..], sep)
    else
      var rest := Split(s[1..], sep);
      [[s[0]] + rest[0]] + rest[1..]
  }

  /** `sep.join(parts)`. */
  function Join(parts: seq<string>, sep: char): string
  {
    if |parts| == 0 then ""
    else if |parts| == 1 then parts[0]
    else parts[0] + [sep] + Join(parts[1..], sep)
  }

  /** Splitting and joining on the same separator gives back the original text. */
  lemma {:induction false} SplitJoin(s: string, sep: char)
    ensures Join(Split(s, sep), sep) == s
  {
    if |s| == 0 {
    } else if s[0] == sep {
      SplitJoin(s[1..], sep);
      var rest := Split(s[1..], sep);
      assert Split(s, sep) == [""] + rest;
      assert ([""] + rest)[1..] == rest;
    } else {
      SplitJoin(s[1..], sep);
      var rest := Split(s[1..], sep);
      var parts := [[s[0]] + rest[0]] + rest[1..];
      assert parts[1..] == rest[1..];
      if |rest| == 1 {
        assert s == [s[0]] + s[1..];
      } else {
        assert Join(rest, sep) == rest[0] + [sep] + Join(rest[1..], sep);
        assert s == [s[0]] + s[1..];
      }
    }
  }

  /** A piece without the separator splits into exactly itself. */
  lemma {:induction false} SplitNoSep(s: string, sep: char)
    requires sep !in s
    ensures Split(s, sep) == [s]
  {
    if |s| > 0 {
      SplitNoSep(s[1..], sep);
      assert s == [s[0]] + s[1..];
    }
  }

  /** Splitting `a + [sep] + b` where `a` holds no separator peels `a` off the front. */
  lemma {:induction false} SplitAfter(a: string, sep: char, b: string)
    requires sep !in a
    ensures Split(a + [sep] + b, sep) == [a] + Split(b, sep)
  {
    if |a| == 0 {
      assert a + [sep] + b == [sep] + b;
      assert ([sep] + b)[1..] == b;
    } else {
      SplitAfter(a[1..], sep, b);
      assert (a + [sep] + b)[1..] == a[1..] + [sep] + b;
      assert a == [a[0]] + a[1..];
    }
  }

  /** `s.endswith(suffix)`. */
  predicate EndsWith(s: string, suffix: string)
  {
    |suffix| <= |s| && s[|s| - |suffix|..] == suffix
  }

  predicate IsDigit(c: char)
  {
    '0' <= c <= '9'
  }

  predicate AllDigits(s: string)
  {
    forall k :: 0 <= k < |s| ==> IsDigit(s[k])
  }

  function DigitValue(c: char): (d: nat)
    requires IsDigit(c)
    ensures d < 10
  {
    (c as int - '0' as int) as nat
  }

  function DigitChar(d: nat): (c: char)
    requires d < 10
    ensures IsDigit(c) && DigitValue(c) == d
  {
    ('0' as int + d) as char
  }

  function Pow10(n: nat): (p: nat)
    ensures p >= 1
  {
    if n == 0 then 1 else 10 * Pow10(n - 1)
  }

  /** `int(s)` for a string of ASCII digits, most significant first. */
  function DigitsValue(s: string): nat
    requires AllDigits(s)
  {
    if |s| == 0 then 0 else 10 * DigitsValue(s[..|s| - 1]) + DigitValue(s[|s| - 1])
  }

  /** The last `width` decimal digits of `n`, zero-padded on the left (`%0<width>d`). */
  function PadDigits(n: nat, width: nat): (s: string)
    ensures |s| == width && AllDigits(s)
  {
    if width == 0 then [] else PadDigits(n / 10, width - 1) + [DigitChar(n % 10)]
  }

  /** Reading back a zero-padded rendering gives the number, as long as it fits. */
  lemma {:induction false} PadDigitsRoundTrip(n: nat, width: nat)
    requires n < Pow10(width)
    ensures DigitsValue(PadDigits(n, width)) == n
  {
    if width > 0 {
      var front := PadDigits(n / 10, width - 1);
      var s := PadDigits(n, width);
      assert n / 10 < Pow10(width - 1);
      PadDigitsRoundTrip(n / 10, width - 1);
      assert s == front + [DigitChar(n % 10)];
      assert s[..|s| - 1] == front;
      assert DigitValue(s[|s| - 1]) == n % 10;
    }
  }

  /** Number of digits of `n` written without leading zeros. */
  function NumDigits(n: nat): (k: nat)
    ensures k >= 1
  {
    if n < 10 then 1 else 1 + NumDigits(n / 10)
  }

  lemma {:induction false} NumDigitsFits(n: nat)
    ensures n < Pow10(NumDigits(n))
  {
    if n >= 10 {
      NumDigitsFits(n / 10);
    }
  }

  /** `str(n)` for a natural number: its digits without leading zeros. */
  function Decimal(n: nat): (s: string)
    ensures AllDigits(s) && |s| >= 1
  {
    PadDigits(n, NumDigits(n))
  }

  /** `int(str(n)) == n`. */
  lemma DecimalRoundTrip(n: nat)
    ensures DigitsValue(Decimal(n)) == n
  {
    NumDigitsFits(n);
    PadDigitsRoundTrip(n, NumDigits(n));
  }

  /** Years 1000 to 9999 are written with exactly four digits. */
  lemma FourDigitNumbers(n: nat)
    requires 1000 <= n < 10000
    ensures |Decimal(n)| == 4
  {
    var n1, n2, n3 := n / 10, n / 100, n / 1000;
    assert n1 / 10 == n2 && n2 / 10 == n3;
    assert NumDigits(n3) == 1;
    assert NumDigits(n2) == 2;
    assert NumDigits(n1) == 3;
  }
}

=== FILE: Wrappers.dfy ===
/** Option and Result, the failure-carrying values used by the parsers of this model. */
module Wrappers {

  /** A value that may be absent: a blank spreadsheet cell, a file that never appeared. */
  datatype Option<+T> = None | Some(value: T) {

    /** The wrapped value, or `default` when there is none. */
    function GetOr(default: T): T {
      match this
      case Some(v) => v
      case None => default
    }
  }

  /** Either a computed value or the error that stopped the computation. */
  datatype Result<+R, +E> = Ok(value: R) | Err(error: E)
}
